=== FILE: README.md ===
# AI-Observer core, modelled in Dafny

AI-Observer is a small Flask service with three parts:

- it captures camera frames into a MongoDB `captures` collection;
- it sends the most recent frames with a prompt to a vision model, stores the answer in a `responses` collection, and archives the frames it sent;
- it serves a dashboard with counts, an hourly histogram, a route listing and the tail of the server log.

This project models the logic of that core:

- the record store of `utils/db.py`;
- the request handlers of `routes/special_routes.py`;
- the data endpoints of `routes/dashboard.py`.

Each is modelled as pure functions over an immutable store, and the project proves what those handlers promise.

Modules, in dependency order:

| file | module | what it holds |
|---|---|---|
| `prelude.dfy` | `Prelude` | `Option`, Python exceptions (`Fault`), `Py<T>` (a value or a raised exception), `s[-n:]`, `reversed`, `str.join` |
| `json.dfy` | `JsonValues` | JSON values, and Python truthiness, `in` and `[...]` on a request body |
| `object_ids.dfy` | `ObjectIds` | `ObjectId(text)` parsing and `str(ObjectId)` rendering, and their round trips |
| `ordering.dfy` | `Ordering` | `.sort('timestamp', -1).limit(n)` as a total order on ids |
| `db.dfy` | `Db` | the two collections and every store operation |
| `lifecycle.dfy` | `Lifecycle` | how writes move a capture between the recent and archived sets |
| `http.dfy` | `Http` | status code plus body |
| `log_tail.dfy` | `LogTail` | the backward, 4096-character-chunk log tail loop |
| `special_routes.dfy` | `SpecialRoutes` | `/capture`, `/send_request`, the listings, `/move_image`, the deletes, `/server_logs` |
| `route_listing.dfy` | `RouteListing` | `/api/routes`: doc cleaning, category, shown method |
| `dashboard.dfy` | `Dashboard` | `/api/stats`, `/api/system`, `/api/logs` |
| `workflow.dfy` | `Workflow` | request sequences: capture, list, send, archive, delete |

## Modelling choices

**The store.** The store is `Store(captures, responses, online)`.

- `captures` and `responses` are maps from a 96-bit object id to a document.
- `online == false` stands for a database server that does not answer: every driver call raises.
- Each operation then takes the branch its own `except` gives it. The `get_*` lists without a `try` raise; `get_archived_captures` returns `[]`; the writes return `None` or `False`.

**Capture state.** A capture's `archived` field is `Option<bool>`; `None` means the field is absent.

- Recent means `False` or absent.
- Archived means `True`.

**New ids.** The id of a new document is a parameter. An id already in use makes the insert fail, which models the driver's duplicate-key error.

**Object ids.**

- `ObjectId(text)` accepts exactly 24 hexadecimal digits, in either case, given as a string.
- `ObjectId(None)` does not raise: it generates a new id. In `save_response` a null capture id therefore becomes a new, unrelated id (`ObjectIds.ObjectIdOf`, `Db.SaveResponse`). A lookup by a new id finds nothing, so the lookups end as they do for a malformed id.
- Every other value raises, and the store swallows the exception.
- `str(id)` gives 24 lower-case digits.

**Listing order.** The database only promises newest first. The model fixes one admissible order for equal timestamps: ascending id. `limit(0)` means no limit.

**Time.** Times are integers counting milliseconds of local wall-clock time. A BSON datetime keeps whole milliseconds, so every stored `datetime.now()` and every query bound reaches the database truncated to the millisecond. `now` is a parameter: the millisecond that `datetime.now()` falls in. The bucket bounds `now - k hours` and the `%H` labels built from the exact time truncate to exactly the model's (`Dashboard.TruncatedBound`, `Dashboard.TruncatedHour`). So the counts compare the same values the server compares.

**Parameters for what the core does not compute.**

- Inference is a function from the prompt and the image parts to the completion; `None` means the call raised.
- The camera frame is `Some(encoded image)`, or `None` when the device fails.
- The sizes `__sizeof__` reports are functions from a stored value to a size.

**The log file.** It is `Missing`, `Unreadable`, or `Readable(text)`. Positions are indices into the text.

**The route table.** `/api/routes` takes it as a sequence of rules.

**The log tail quirk.** The log tail splits each chunk into lines on its own, so a line that straddles a chunk boundary comes out as two entries. `StraddlingLineIsSplit` exhibits this for every one-line file between 4097 and 8192 characters long. Only a file of at most one chunk yields exactly its own last lines (`SingleChunkTail`).

**The two log endpoints.** `/server_logs` and `/api/logs` show the same gathered lines in opposite orders. `LogRoutesDifferOnlyInOrder` proves this.

**Behaviour of the code worth noting:**

- `send_request` checks only that the `message` key is present, so an empty prompt is accepted (`SpecialRoutes.SendRequest`).
- A malformed id is not reported as an invalid-id error. The store swallows the exception and returns `False`/`None`, so `delete_image` and `delete_response` answer 404 and `move_image` answers 500 (`Workflow.MalformedDeleteIsNotFound`, `Lifecycle.MalformedIdTouchesNothing`).
- The last step of `workflow_test.py` looks for the text `<id>.png` in a list of capture documents. That check holds whatever the list contains. `Workflow.ImageWorkflow` states the intended check instead: no listed entry carries the deleted id.
- Unarchiving a capture that has no `archived` field modifies it (the field is set to `False`), so the call returns `True` (`Db.SetArchived`).

## Model

| member | source | states |
|---|---|---|
| ObjectIds.ParseId | utils/db.py:77 | `ObjectId(x)` for a non-null `x` succeeds exactly for a string of 24 hexadecimal digits, and yields the number they spell |
| ObjectIds.ObjectIdOf | utils/db.py:63 | `ObjectId(x)` on a request value: null yields the newly generated id, a string of 24 hexadecimal digits yields its number, and anything else raises |
| ObjectIds.Render | utils/db.py:49 | `str(inserted_id)` is 24 lower-case hexadecimal digits |
| ObjectIds.ParseRender | routes/special_routes.py:140 | parsing the text of an id gives the id back |
| ObjectIds.RenderParse | utils/db.py:136 | rendering a parsed id gives the input text with its letters lower-cased |
| ObjectIds.SameIdIffSameFolding | utils/db.py:159 | two id texts name the same document exactly when they agree ignoring case |
| JsonValues.KeyIn | routes/special_routes.py:119 | `key in data` is dict membership on an object, and raises TypeError on null, booleans and numbers |
| JsonValues.Subscript | routes/special_routes.py:122 | `data[key]` yields the field exactly when `data` is an object holding `key` |
| Ordering.Ordered | utils/db.py:127 | every id of the set exactly once, newest first, ties by id |
| Ordering.Limit | utils/db.py:99 | `.limit(n)` keeps the first `n`, and `0` keeps all |
| Ordering.Listing | utils/db.py:94-99 | only matching ids, newest first, as many as the limit allows, and every matching id left out is listed after every id returned |
| Ordering.NewestFirstDistinct | utils/db.py:127 | a newest-first listing never repeats an id |
| Db.RecentIds | utils/db.py:94-98 | a capture is recent exactly when `archived` is false or absent |
| Db.ArchivedIds | utils/db.py:127 | a capture is archived exactly when `archived` is true |
| Db.RecentArchivedPartition | utils/db.py:94-98 | every capture is recent or archived, never both |
| Db.PathName | utils/db.py:39 | `Path.name` is the longest suffix without a `/`: the whole path, or the text after its last `/` |
| Db.FileType | utils/db.py:42 | `suffix[1:]` is the text after the last dot of the name, empty when there is none, the name starts with its only dot, or ends with a dot |
| Db.SaveCapture | utils/db.py:30-53 | succeeds iff the file was read, the server answers and the id is free; it then adds exactly one recent capture with the file's name, path, extension and contents, and returns its id text; on failure nothing changes |
| Db.SaveCaptureData | utils/db.py:105-122 | succeeds iff the server answers and the id is free; it then adds exactly one capture `(now, data, "png", archived False)` and returns its id text; on failure nothing changes |
| Db.ParseAll | utils/db.py:63 | the list comprehension of `ObjectId`s succeeds iff every element is null or parses, and keeps the order; a null element becomes the id generated for its position |
| Db.SaveResponse | utils/db.py:55-72 | succeeds iff every capture id is null or parses, the server answers and the id is free; a null capture id is stored as a newly generated id; the stored response takes `''`, `{}` and the time as defaults; on failure nothing is inserted |
| Db.SetArchived | utils/db.py:132-154 | returns true iff the server answers, the id parses, names a capture and that capture's flag differs from the target; only that flag changes |
| Db.ArchiveCapture | utils/db.py:132-142 | true iff the server answers, the id parses, and the capture exists and is not archived; afterwards it is archived and not recent |
| Db.UnarchiveCapture | utils/db.py:144-154 | true iff the server answers, the id parses, and the capture exists with a flag other than `False`; afterwards it is recent and not archived |
| Db.DeleteCapture | utils/db.py:156-166 | true iff the server answers, the id parses and names a capture; exactly that capture is removed |
| Db.DeleteResponse | utils/db.py:168-180 | true iff the server answers, the id parses and names a response; exactly that response is removed |
| Db.GetCapture | utils/db.py:74-81 | the capture with that id; `None` when absent, malformed or on error |
| Db.GetResponse | utils/db.py:83-90 | the response with that id; `None` when absent, malformed or on error |
| Db.RecentCaptures | utils/db.py:92-99 | raises iff the server is down; otherwise only recent captures, newest first, `min(limit, count)` of them, all of them when the limit allows, and none left out is newer than one returned |
| Db.ArchivedCaptures | utils/db.py:124-130 | every archived capture and nothing else, newest first, without a limit; `[]` on error |
| Db.RecentResponses | utils/db.py:101-103 | raises iff the server is down; otherwise responses newest first, at most `limit`, all of them when the limit allows, and none left out is newer than one returned |
| Lifecycle.ArchiveMovesToArchived | utils/db.py:132-142 | a successful archive moves exactly that capture from the recent set to the archived set |
| Lifecycle.UnarchiveMovesToRecent | utils/db.py:144-154 | a successful unarchive moves exactly that capture from the archived set to the recent set |
| Lifecycle.ArchiveSetMoves | routes/special_routes.py:164-167 | archiving a set of captures moves exactly that set from recent to archived |
| Lifecycle.ArchiveThenUnarchive | utils/db.py:132-154 | archive then unarchive restores both sets, and the whole store when the flag was `False` before |
| Lifecycle.ArchiveTwice | utils/db.py:139 | a second archive modifies nothing and returns false |
| Lifecycle.UnarchiveTwice | utils/db.py:151 | a second unarchive modifies nothing and returns false |
| Lifecycle.DeleteTwice | utils/db.py:156-180 | a second delete of the same id returns false and changes nothing |
| Lifecycle.DeleteLeavesListings | utils/db.py:156-166 | a deleted capture leaves both sets and can no longer be fetched |
| Lifecycle.SavedCaptureIsRecent | utils/db.py:105-122 | a new frame joins the recent set and leaves the archived set alone |
| Lifecycle.SavedResponseIsFound | utils/db.py:55-90 | a saved response is found by the id text `save_response` returns, and every response stored before reads back unchanged |
| Lifecycle.SavedFileIsRecent | utils/db.py:30-53 | a capture saved from a file joins the recent set, leaves the archived set alone, and is found again by the id text returned |
| Lifecycle.MalformedIdTouchesNothing | utils/db.py:132-180 | a malformed id makes every write return false without changing the store, and every read return `None` |
| SpecialRoutes.CaptureRoute | routes/special_routes.py:62-113 | 200 iff a frame arrives and is saved; the reply carries the new id, which is recent; a device failure gives 500 with `{"status": "error", "message": str(e)}`, a failed save gives 500 with "Failed to save capture to database", and neither changes the store |
| SpecialRoutes.ImageParts | routes/special_routes.py:131-139 | one image part per fetched capture, in fetched order |
| SpecialRoutes.IdTexts | routes/special_routes.py:140 | one id text per fetched capture, in the same order, each parsing back to the capture's id |
| SpecialRoutes.ArchiveEach | routes/special_routes.py:164-167 | the archive loop leaves every named capture archived and changes nothing else, whatever each call returned |
| SpecialRoutes.TargetsOfIdTexts | routes/special_routes.py:140 | the ids the archive loop reaches are exactly the fetched ones |
| SpecialRoutes.SendRequest | routes/special_routes.py:115-178 | a body without `message` gives 400 and no change (an empty prompt passes); otherwise it continues to dispatch; on 200 the store is committed as described for `Dispatch` |
| SpecialRoutes.Dispatch | routes/special_routes.py:125-178 | 200 iff the server answers, a recent capture exists, inference answers and the response id is free; no recent capture gives 400 "No captures found"; a failed inference gives 500; a failed save gives 500; none of these writes anything; on success exactly one response naming the fetched ids is added and exactly the fetched captures are archived |
| SpecialRoutes.Commit | routes/special_routes.py:153-174 | the response is saved first; archiving happens only if the save succeeded; a failed save gives 500 and archives nothing |
| SpecialRoutes.MoveImage | routes/special_routes.py:227-258 | a missing `image_id` or `action` gives 400; an unknown action gives 400; otherwise 200 iff the store call returned true, else 500 |
| SpecialRoutes.DeleteImage | routes/special_routes.py:260-276 | a missing `image_id` gives 400; otherwise 200 iff the capture was deleted, else 404 |
| SpecialRoutes.DeleteResponseRoute | routes/special_routes.py:278-293 | a missing `response_id` gives 400; otherwise 200 iff the response was deleted, else 404 |
| SpecialRoutes.CaptureJson | routes/special_routes.py:185-187 | a listed capture carries its id as text |
| SpecialRoutes.CaptureList | routes/special_routes.py:185-187 | one JSON entry per capture, in order |
| SpecialRoutes.RecentCapturesRoute | routes/special_routes.py:180-190 | 200 iff the server answers; at most ten entries, each naming a recent capture |
| SpecialRoutes.ArchivedCapturesRoute | routes/special_routes.py:215-225 | always 200; one entry per archived capture, each naming an archived capture; `[]` on error |
| SpecialRoutes.ResponseJson | routes/special_routes.py:199-206 | a listed response has exactly `_id`, `timestamp`, `response_data` and `capture_ids`; its capture ids are texts that parse back to the stored ids |
| SpecialRoutes.RecentResponsesRoute | routes/special_routes.py:192-213 | 200 iff the server answers; the ten newest responses, formatted, in order |
| SpecialRoutes.ServerLogs | routes/special_routes.py:295-333 | a missing file gives 404 "No logs available"; a read failure gives 500; otherwise the gathered tail, newest line first, joined by newlines |
| LogTail.LineEnd | routes/special_routes.py:321 | the first line break of the text, with no break before it |
| LogTail.SplitLines | routes/special_routes.py:321 | `splitlines()` yields lines without breaks, and at least one line for non-empty text |
| LogTail.SplitLinesConcat | routes/special_routes.py:321 | the lines put back together are the text with its line breaks removed |
| LogTail.SplitLinesOfJoin | routes/special_routes.py:321 | lines without breaks, the last one non-empty, joined with `\n` split back into exactly those lines, so the split points are fixed |
| LogTail.SplitLinesCount | routes/special_routes.py:321 | there is one line per line ending (`\r\n` counting once), plus one for a last line without a terminator |
| LogTail.ChunkStart | routes/special_routes.py:314 | each step moves the position strictly back, by at most 4096, and by exactly 4096 unless it reaches the start |
| LogTail.ChunksRead | routes/special_routes.py:312-326 | the loop reads the least number of chunks after which it has 1000 lines or has reached the start |
| LogTail.ReadTail | routes/special_routes.py:304-326 | the imperative loop, with its early `break`, ends with the lines of exactly those chunks, each chunk split on its own, earlier chunks first |
| LogTail.NewestFirstLines | routes/special_routes.py:328-329 | at most 1000 lines, the last gathered ones, in reverse order |
| LogTail.OldestFirstLines | routes/dashboard.py:220-221 | at most 1000 lines, the last gathered ones, in gathered order |
| LogTail.LogEndpointsDisagreeOnlyInOrder | routes/dashboard.py:221 | the `/api/logs` lines are the `/server_logs` lines reversed |
| LogTail.SingleChunkTail | routes/special_routes.py:304-330 | a file of at most 4096 characters is read in one step, so the tail is exactly its own lines |
| LogTail.StraddlingLineIsSplit | routes/special_routes.py:318-321 | a single unbroken line of 4097 to 8192 characters comes out as two entries, split at the chunk boundary |
| LogTail.TwoChunksRead | routes/special_routes.py:312-326 | such a file is read in exactly two chunks |
| RouteListing.Filter | routes/dashboard.py:120 | the kept characters, all satisfying the predicate |
| RouteListing.FilterFilter | routes/dashboard.py:120 | filtering twice is filtering once by both predicates |
| RouteListing.Words | routes/dashboard.py:119 | `split()` yields non-empty runs without whitespace |
| RouteListing.WordsKeepVisible | routes/dashboard.py:119 | normalising whitespace keeps every non-whitespace character, in order |
| RouteListing.WordsOfJoin | routes/dashboard.py:119 | splitting words joined by single spaces gives the words back |
| RouteListing.Strip | routes/dashboard.py:120 | `strip()` leaves no whitespace at either end, and is empty exactly for all-whitespace text |
| RouteListing.StripKeepsVisible | routes/dashboard.py:120 | stripping removes only whitespace |
| RouteListing.CleanText | routes/dashboard.py:119-120 | the cleaned text holds only letters, digits, spaces, dots and commas, with no space at either end |
| RouteListing.CleanDoc | routes/dashboard.py:117-120 | the same for a view's documentation, or the default text when it has none |
| RouteListing.CleanDocMarks | routes/dashboard.py:117-120 | apart from spaces, the cleaned doc holds exactly the input's letters, digits, dots and commas, in order |
| RouteListing.CleanDocKeepsCleanText | routes/dashboard.py:117-120 | text already made of such words joined by single spaces is unchanged by cleaning |
| RouteListing.MissingDocGivesDefault | routes/dashboard.py:117 | a missing or empty docstring becomes "No documentation available" |
| RouteListing.CleanDocKeepsDoubleSpace | routes/dashboard.py:119-120 | a dropped character between two words leaves a double space: cleaning does not guarantee single spaces |
| RouteListing.ShortName | routes/dashboard.py:133 | `endpoint.split('.')[-1]` is the text after the last dot |
| RouteListing.Category | routes/dashboard.py:127 | `api` iff the endpoint contains `special_routes.`, else `dashboard` iff it contains `dashboard.`, else `lander` |
| RouteListing.ShownMethod | routes/dashboard.py:130-137 | the first method other than HEAD and OPTIONS, or `GET` when none remains |
| RouteListing.Describe | routes/dashboard.py:117-138 | an entry's path, name, category, method and doc, where any endpoint containing `static` gets "Serve static files" |
| RouteListing.Listed | routes/dashboard.py:108-111 | every rule except the `static` endpoint, and only those |
| RouteListing.ListedOne | routes/dashboard.py:108-111 | a single rule is listed exactly when its endpoint is not `static` |
| RouteListing.ListedConcat | routes/dashboard.py:108-111 | listing a concatenation lists each part in turn, so rule order and repeated rules are kept |
| RouteListing.RouteEntries | routes/dashboard.py:105-138 | one entry per listed rule, in rule order |
| RouteListing.RoutesRoute | routes/dashboard.py:102-140 | always 200, with one JSON entry per listed rule |
| Dashboard.Window | routes/dashboard.py:60-65 | a document is counted exactly when `hour_start <= timestamp < hour_end` |
| Dashboard.Since | routes/dashboard.py:45-47 | a document is counted exactly when `timestamp >= today` |
| Dashboard.BucketOf | routes/dashboard.py:56-59 | every instant of the last 24 hours falls in one of the 24 buckets |
| Dashboard.InstantInOneBucket | routes/dashboard.py:57-71 | only instants of the last day are bucketed, and each lies in exactly one bucket |
| Dashboard.WindowSplit | routes/dashboard.py:60-65 | half-open windows split without overlap or gap |
| Dashboard.BucketsTile | routes/dashboard.py:56-76 | the counts of the `n` most recent buckets add up to the count of the last `n` hours |
| Dashboard.Midnight | routes/dashboard.py:41 | `today` is the last midnight at or before `now` |
| Dashboard.TruncatedBound | routes/dashboard.py:58-69 | the bound `now - timedelta(hours=k)`, truncated to the millisecond as stored, is the truncated `now` minus `k` hours, so the model's bucket bounds are the server's |
| Dashboard.TruncatedHour | routes/dashboard.py:73 | the hour of day of an exact time equals that of its millisecond truncation, so the bucket labels agree |
| Dashboard.HourLabel | routes/dashboard.py:73 | `'%H:00'` is two digits spelling the hour of day, then `:00` |
| Dashboard.SizeSumRemove | routes/dashboard.py:79-82 | the size sum does not depend on document order: it is any one document's size plus the sum of the rest |
| Dashboard.DeleteCaptureFreesItsImage | routes/dashboard.py:79-80 | a successful delete lowers the capture storage figure by exactly that image's size |
| Dashboard.DeleteResponseFreesItsData | routes/dashboard.py:81-82 | a successful delete lowers the response storage figure by exactly that response's size |
| Dashboard.SaveCaptureDataAddsItsImage | routes/dashboard.py:79-80 | a saved frame raises the capture storage figure by exactly its size |
| Dashboard.ArchivingKeepsStorage | routes/dashboard.py:79-82 | archiving or unarchiving leaves both storage figures unchanged |
| Dashboard.GetStats | routes/dashboard.py:37-97 | raises iff the server is down; totals are the collection sizes; today counts are documents since midnight; the storage parts are the summed sizes of the stored images and response data, and the total is their sum; there are 24 hourly buckets, bucket `i` being that of `Dashboard.HourlyBucket`; times are the whole milliseconds the database compares |
| Dashboard.HourlyBucket | routes/dashboard.py:57-76 | bucket `i` is labelled with its start hour and counts the documents in `[now-(i+1)h, now-ih)`, all times in the whole milliseconds the database compares |
| Dashboard.HourlyStatsCoverLastDay | routes/dashboard.py:56-76 | the 24 hourly counts add up to the number of documents of the last 24 hours |
| Dashboard.TodayCountsSinceMidnight | routes/dashboard.py:41-53 | today counts never exceed the totals, and include the latest hour's bucket, for captures and for responses, when that bucket starts after midnight |
| Dashboard.StatsRoute | routes/dashboard.py:37-100 | 200 iff the server answers, 500 otherwise |
| Dashboard.SystemCountsAddUp | routes/dashboard.py:151-164 | recent and archived counts add up to the number of captures, and agree with the lengths of the listings |
| Dashboard.SystemInfoRoute | routes/dashboard.py:146-185 | 200 iff the server answers, 500 otherwise |
| Dashboard.LogsRoute | routes/dashboard.py:187-225 | a missing file gives 404 "No logs available"; a read failure gives 500; otherwise 200 |
| Dashboard.LogRoutesDifferOnlyInOrder | routes/dashboard.py:187-225 | `/api/logs` answers as `/server_logs` does, except that its lines come in the reverse order |
| Workflow.NewestRecentIsListed | utils/db.py:92-99 | a recent capture newer than every other is in any listing of recent captures |
| Workflow.NewestResponseIsShown | routes/special_routes.py:192-209 | the newest response appears in `/recent_responses` |
| Workflow.FetchesAllFew | routes/special_routes.py:126 | with at most five recent captures, the send fetches every one |
| Workflow.FetchedInOrder | routes/special_routes.py:126-140 | the fetched ids are exactly the recent ones, newest first |
| Workflow.SendArchivesAllFew | routes/special_routes.py:115-178 | a successful send with at most five recent captures archives all of them, and its response names exactly those, newest first |
| Workflow.CaptureIsListed | workflow_test.py:26-42 | a captured frame answers 200 with its id, is the newest recent capture, and `/recent_captures` lists it |
| Workflow.SendArchivesNewest | workflow_test.py:44-93 | a send while a capture is the newest recent one succeeds, names it in the response, and moves it to the archived listing |
| Workflow.SendShowsResult | routes/special_routes.py:180-213 | after that send, `/recent_captures` no longer shows the capture and `/recent_responses` shows the new response |
| Workflow.DeleteUnlists | workflow_test.py:107-123 | deleting a stored capture answers 200 and removes it from `/archived_captures` |
| Workflow.ImageWorkflow | workflow_test.py:12-124 | capture, find in recent, send, find archived and not recent with its response listed, delete, and gone |
| Workflow.MoveImageArchiveTwice | routes/special_routes.py:239-244 | re-archiving an already archived image answers 500 and changes nothing |
| Workflow.DeleteImageTwice | routes/special_routes.py:269-272 | deleting the same image twice answers 404 the second time |
| Workflow.MalformedDeleteIsNotFound | routes/special_routes.py:263-289 | a malformed id in a delete request is answered 404 |

## Left out

- Camera access, colour conversion and PNG encoding: the frame is a parameter (`Some` encoded image, or `None` when the device fails). The shared device handle and its release on error are not modelled.
- Base64 encoding of image bytes: image data is an opaque string.
- The inference client: it is a parameter, and the prompt it builds is not modelled.
- `__sizeof__`: sizes are parameters. Python's per-object overhead is not modelled.
- `datetime.now()`, local time zones and daylight-saving changes: time is an integer count of milliseconds of local wall-clock time, and days have exactly 24 hours.
- `strftime` beyond `%H:00`, floating-point time, and timestamps stored as anything but times.
- Index creation and logging: no observable effect on results.
- Request bodies that are not JSON, and Flask's own 400/415 handling: bodies are JSON values.
- `archived` values other than booleans or an absent field: such documents are neither recent nor archived in the source. The model's flag cannot express them, so `Db.RecentArchivedPartition` covers every capture.
- `str.isalnum` beyond ASCII: `RouteListing.IsAlnum` accepts only ASCII letters and digits.
- Db.PathName: takes the text after the last `/` of the given path; `pathlib` normalisation is not modelled.
- Text-mode decoding and newline translation of the log file: the file is its decoded text, and positions are character indices.
- Concurrency: each request runs alone against one store snapshot, and the server is up or down for the whole request.
- `main.py`, `routes/lander.py` and `config.py`: wiring and configuration. The log path and port of `/api/system` are parameters.
- The dashboard page and the browser scripts: presentation only.
- A view function missing from `view_functions`, which would raise in `/api/routes`: the route table is taken to be consistent.
- The order of a rule's method set: `RouteListing.ShownMethod` takes the first non-implicit method in the order given.
- The order among documents with equal timestamps: the model fixes ascending id, one of the orders the database may return.
- SpecialRoutes.CaptureJson: a timestamp is a number of milliseconds. `jsonify` renders a `datetime` as an HTTP-date string, and that text format is not modelled. The same holds for the `timestamp` of `SpecialRoutes.ResponseJson`.
- ObjectIds.ParseId: gives `None` for null, where `ObjectId(None)` generates a new id. In the lookups by id that new id names no stored document, so the result is the same. `Db.SaveResponse` models the generated ids through `ObjectIds.ObjectIdOf`.
- Db.SaveCaptureData: succeeds whenever the server answers and the id is free. `insert_one` also raises, and the call then returns `None`, when BSON cannot encode the document or the document exceeds 16 MiB (a very large image). Document encoding and size are not modelled.
- Db.SaveCapture: the same holds for a capture read from a file. An unencodable or oversized document makes the source return `None`; the model does not cover that case.
- Db.SaveResponse: the same holds for a response. For example, a JSON integer outside signed 64 bits in `message` or `response_data` raises `OverflowError` on encoding and gives `None`. `JNum` is unbounded, so the model saves it.
- SpecialRoutes.CaptureRoute: a frame whose document is too large to insert gives 500 "Failed to save capture to database" in the source, through `Db.SaveCaptureData`'s failure. The model answers 200 for it, as above.
- JSON numbers that are floats: `JNum` holds integers only. In the core a float behaves like any other number under truthiness, `in` and subscription, and is stored as given, so no other result changes.
- Dashboard.StatsRoute: states the status and the error path only. The figures in the body are those of `Dashboard.GetStats`.
- Dashboard.SystemInfoRoute: states the status and the error path only. The counts in the body are those of `Dashboard.SystemCountsAddUp`.
- Dashboard.LogsRoute: states the status and the error paths. The 200 body is related to `/server_logs` by `Dashboard.LogRoutesDifferOnlyInOrder`.
- Workflow.ImageWorkflow: assumes every earlier capture and response is strictly older than the new ones, and that inference answers. The live test relies on the clock and on a reachable model for these.

=== FILE: dashboard.dfy ===
/** The data endpoints of `routes/dashboard.py`: `/api/stats`, `/api/system` and
    `/api/logs` (`/api/routes` is in `RouteListing`).

    A timestamp is an integer count of milliseconds of local wall-clock time: a
    BSON datetime keeps whole milliseconds, so every stored `datetime.now()` and
    every bound of a query reaches the database truncated to the millisecond.
    `now` is a parameter, the millisecond `datetime.now()` falls in; the bounds
    `now - k hours` the code builds from the exact time truncate to exactly the
    bounds the model uses (`TruncatedBound`, `TruncatedHour`). The sizes the code estimates with `__sizeof__` are given as
    functions from a stored value to its size. */
module Dashboard {
  import opened Prelude
  import opened JsonValues
  import opened ObjectIds
  import opened Db
  import opened Http
  import opened LogTail
  import SpecialRoutes

  const Hour: int := 3_600_000
  const Day: int := 86_400_000
  const MicrosPerMilli: int := 1000
  const HourCount: nat := 24

  // ---------------------------------------------------------------- time windows

  /** The ids whose time lies in `[lo, hi)`: `{'$gte': lo, '$lt': hi}`. */
  function Window(time: map<Oid, int>, lo: int, hi: int): (s: set<Oid>)
    ensures s <= time.Keys
    ensures forall k | k in time :: k in s <==> lo <= time[k] < hi
  {
    set k | k in time && lo <= time[k] < hi
  }

  /** The ids whose time is at least `lo`: `{'$gte': lo}`. */
  function Since(time: map<Oid, int>, lo: int): (s: set<Oid>)
    ensures s <= time.Keys
    ensures forall k | k in time :: k in s <==> lo <= time[k]
  {
    set k | k in time && lo <= time[k]
  }

  /** Hourly bucket `i` is `[now - (i + 1) hours, now - i hours)`. */
  function HourStart(now: int, i: int): int
  {
    now - (i + 1) * Hour
  }

  function HourEnd(now: int, i: int): int
  {
    now - i * Hour
  }

  /** The bucket an instant of the last day falls in: bucket 0 holds the most
      recent hour. */
  function BucketOf(now: int, t: int): (b: nat)
    requires now - Day <= t < now
    ensures b < HourCount
    ensures HourStart(now, b) <= t < HourEnd(now, b)
  {
    var b := (now - 1 - t) / Hour;
    assert b * Hour <= now - 1 - t < b * Hour + Hour;
    b
  }

  /** Buckets are adjacent and disjoint, so an instant of the last day lies in
      exactly one of them, and no instant outside the last day lies in any. */
  lemma InstantInOneBucket(now: int, t: int, i: int)
    requires 0 <= i < HourCount
    ensures HourStart(now, i) <= t < HourEnd(now, i) ==> now - Day <= t < now
    ensures now - Day <= t < now ==> (HourStart(now, i) <= t < HourEnd(now, i) <==> i == BucketOf(now, t))
  {
    if now - Day <= t < now {
      var b := BucketOf(now, t);
      if i < b {
        assert HourEnd(now, b) <= HourStart(now, i);
      } else if b < i {
        assert HourEnd(now, i) <= HourStart(now, b);
      }
    }
  }

  /** `[lo, hi)` is the disjoint union of `[lo, mid)` and `[mid, hi)`. */
  lemma WindowSplit(time: map<Oid, int>, lo: int, mid: int, hi: int)
    requires lo <= mid <= hi
    ensures |Window(time, lo, hi)| == |Window(time, lo, mid)| + |Window(time, mid, hi)|
  {
    var a, b := Window(time, lo, mid), Window(time, mid, hi);
    assert Window(time, lo, hi) == a + b;
    assert a * b == {};
  }

  /** The sum of the counts of the `n` most recent buckets. */
  function BucketSum(time: map<Oid, int>, now: int, n: nat): nat
  {
    if n == 0 then 0 else BucketSum(time, now, n - 1) + |Window(time, HourStart(now, n - 1), HourEnd(now, n - 1))|
  }

  /** The `n` most recent buckets tile `[now - n hours, now)`: their counts add up
      to the count of that span. */
  lemma {:induction false} BucketsTile(time: map<Oid, int>, now: int, n: nat)
    ensures BucketSum(time, now, n) == |Window(time, now - n * Hour, now)|
  {
    if n == 0 {
      assert Window(time, now, now) == {};
    } else {
      BucketsTile(time, now, n - 1);
      WindowSplit(time, now - n * Hour, now - (n - 1) * Hour, now);
    }
  }

  /** `now.replace(hour=0, minute=0, second=0, microsecond=0)`. */
  function Midnight(now: int): (m: int)
    ensures m <= now < m + Day
    ensures m % Day == 0
  {
    now - now % Day
  }

  /** The hour of day of `t`, as `strftime('%H')` gives it. */
  function HourOfDay(t: int): (h: nat)
    ensures h < 24
    ensures Midnight(t) + h * Hour <= t < Midnight(t) + h * Hour + Hour
  {
    (t % Day) / Hour
  }

  /** What the database keeps of a `datetime` given in microseconds: the whole
      milliseconds, rounded down as bson does (`microsecond // 1000`). */
  function MillisOf(micros: int): (ms: int)
    ensures ms * MicrosPerMilli <= micros < ms * MicrosPerMilli + MicrosPerMilli
  {
    micros / MicrosPerMilli
  }

  /** `now - timedelta(hours=k)` reaches the database as the truncated `now` minus
      `k` whole hours: the bucket bounds of the model are the ones the server
      compares. */
  lemma TruncatedBound(nowMicros: int, k: nat)
    ensures MillisOf(nowMicros - k * (Hour * MicrosPerMilli)) == MillisOf(nowMicros) - k * Hour
  {
    var m, r := nowMicros / MicrosPerMilli, nowMicros % MicrosPerMilli;
    assert nowMicros - k * (Hour * MicrosPerMilli) == MicrosPerMilli * (m - k * Hour) + r;
    DivModUnique(nowMicros - k * (Hour * MicrosPerMilli), MicrosPerMilli, m - k * Hour, r);
  }

  /** `strftime('%H')` of an exact time is the hour of day of its truncation:
      the label of a bucket does not depend on the dropped microseconds. */
  lemma TruncatedHour(micros: int)
    ensures (micros % (Day * MicrosPerMilli)) / (Hour * MicrosPerMilli) == HourOfDay(MillisOf(micros))
  {
    var m, r := micros / MicrosPerMilli, micros % MicrosPerMilli;
    var a, b := m / Day, m % Day;
    assert micros == (Day * MicrosPerMilli) * a + (MicrosPerMilli * b + r);
    DivModUnique(micros, Day * MicrosPerMilli, a, MicrosPerMilli * b + r);
    var h, x := b / Hour, b % Hour;
    assert MicrosPerMilli * b + r == (Hour * MicrosPerMilli) * h + (MicrosPerMilli * x + r);
    DivModUnique(MicrosPerMilli * b + r, Hour * MicrosPerMilli, h, MicrosPerMilli * x + r);
  }

  /** `strftime('%H:00')`. */
  function HourLabel(t: int): (s: string)
    ensures |s| == 5 && s[2..] == ":00"
    ensures '0' <= s[0] <= '9' && '0' <= s[1] <= '9'
    ensures (s[0] as int - '0' as int) * 10 + (s[1] as int - '0' as int) == HourOfDay(t)
  {
    var h := HourOfDay(t);
    [('0' as int + h / 10) as char, ('0' as int + h % 10) as char] + ":00"
  }

  // ---------------------------------------------------------------- storage

  /** The smallest id of a non-empty set. */
  function LeastId(s: set<Oid>): (k: Oid)
    requires s != {}
    ensures k in s && forall j | j in s :: k <= j
  {
    LeastExists(s);
    var k :| IsLeast(s, k);
    k
  }

  lemma {:induction false} LeastExists(s: set<nat>)
    requires s != {}
    ensures exists k :: IsLeast(s, k)
    decreases s
  {
    var y :| y in s;
    var rest := s - {y};
    if rest == {} {
      assert s == {y};
      assert IsLeast(s, y);
    } else {
      LeastExists(rest);
      var k :| IsLeast(rest, k);
      LeastOfAddition(s, y, rest, k);
    }
  }

  predicate IsLeast(s: set<nat>, k: nat)
  {
    k in s && forall j | j in s :: k <= j
  }

  lemma LeastOfAddition(s: set<nat>, y: nat, rest: set<nat>, k: nat)
    requires s == rest + {y} && IsLeast(rest, k)
    ensures IsLeast(s, if y < k then y else k)
  {
  }

  /** `sum(size(doc) for doc in collection)`. */
  function SizeSum<T>(m: map<Oid, T>, size: T -> nat): nat
    decreases |m.Keys|
  {
    if m.Keys == {} then 0
    else
      var k := LeastId(m.Keys);
      assert (m - {k}).Keys == m.Keys - {k};
      size(m[k]) + SizeSum(m - {k}, size)
  }

  /** The sum does not depend on the order the documents come in: any one document
      can be taken out first. */
  lemma {:induction false} SizeSumRemove<T>(m: map<Oid, T>, k: Oid, size: T -> nat)
    requires k in m
    ensures SizeSum(m, size) == size(m[k]) + SizeSum(m - {k}, size)
    decreases |m.Keys|
  {
    var j := LeastId(m.Keys);
    if j != k {
      SizeSumLeast(m, size);
      RemoveTwo(m, j, k);
      SizeSumRemove(m - {j}, k, size);
      SizeSumRemove(m - {k}, j, size);
    }
  }

  /** The first step of the sum: the least id's document comes out first. */
  lemma SizeSumLeast<T>(m: map<Oid, T>, size: T -> nat)
    requires m.Keys != {}
    ensures SizeSum(m, size) == size(m[LeastId(m.Keys)]) + SizeSum(m - {LeastId(m.Keys)}, size)
  {
  }

  /** Taking two ids out of a map in either order gives the same map. */
  lemma RemoveTwo<T>(m: map<Oid, T>, j: Oid, k: Oid)
    requires j in m && k in m && j != k
    ensures (m - {j}).Keys == m.Keys - {j} && (m - {k}).Keys == m.Keys - {k}
    ensures k in m - {j} && (m - {j})[k] == m[k]
    ensures j in m - {k} && (m - {k})[j] == m[j]
    ensures m - {j} - {k} == m - {k} - {j}
  {
  }

  /** Adding a document adds its size. */
  lemma SizeSumAdd<T>(m: map<Oid, T>, k: Oid, v: T, size: T -> nat)
    requires k !in m
    ensures SizeSum(m[k := v], size) == SizeSum(m, size) + size(v)
  {
    SizeSumRemove(m[k := v], k, size);
    assert m[k := v] - {k} == m;
  }

  /** What `__sizeof__` reports for an image text and for a response's data. */
  datatype Sizes = Sizes(ofImage: string -> nat, ofData: Json -> nat)

  function CaptureBytes(st: Store, sizes: Sizes): nat
  {
    SizeSum(st.captures, (c: Capture) => sizes.ofImage(c.imageData))
  }

  function ResponseBytes(st: Store, sizes: Sizes): nat
  {
    SizeSum(st.responses, (r: Response) => sizes.ofData(r.responseData))
  }

  /** Deleting a capture frees exactly its image's size; a failed delete frees nothing. */
  lemma DeleteCaptureFreesItsImage(st: Store, id: Json, sizes: Sizes)
    ensures var w := DeleteCapture(st, id);
      if w.result then
        CaptureBytes(w.store, sizes) + sizes.ofImage(st.captures[ParseId(id).value].imageData) == CaptureBytes(st, sizes)
      else CaptureBytes(w.store, sizes) == CaptureBytes(st, sizes)
  {
    var w := DeleteCapture(st, id);
    if w.result {
      SizeSumRemove(st.captures, ParseId(id).value, (c: Capture) => sizes.ofImage(c.imageData));
    }
  }

  /** Deleting a response frees exactly its data's size. */
  lemma DeleteResponseFreesItsData(st: Store, id: Json, sizes: Sizes)
    ensures var w := DeleteResponse(st, id);
      if w.result then
        ResponseBytes(w.store, sizes) + sizes.ofData(st.responses[ParseId(id).value].responseData) == ResponseBytes(st, sizes)
      else ResponseBytes(w.store, sizes) == ResponseBytes(st, sizes)
  {
    var w := DeleteResponse(st, id);
    if w.result {
      SizeSumRemove(st.responses, ParseId(id).value, (r: Response) => sizes.ofData(r.responseData));
    }
  }

  /** Saving a frame adds exactly its image's size. */
  lemma SaveCaptureDataAddsItsImage(st: Store, imageData: string, now: int, newId: Oid, sizes: Sizes)
    ensures var w := SaveCaptureData(st, imageData, now, newId);
      CaptureBytes(w.store, sizes) == CaptureBytes(st, sizes) + (if w.result.Some? then sizes.ofImage(imageData) else 0)
  {
    var w := SaveCaptureData(st, imageData, now, newId);
    if w.result.Some? {
      SizeSumAdd(st.captures, newId, Capture(now, imageData, "png", Some(false), None),
        (c: Capture) => sizes.ofImage(c.imageData));
    }
  }

  /** Archiving or unarchiving does not change the storage figures. */
  lemma ArchivingKeepsStorage(st: Store, id: Json, flag: bool, sizes: Sizes)
    ensures CaptureBytes(SetArchived(st, id, flag).store, sizes) == CaptureBytes(st, sizes)
    ensures ResponseBytes(SetArchived(st, id, flag).store, sizes) == ResponseBytes(st, sizes)
  {
    var w := SetArchived(st, id, flag);
    if w.result {
      var k := ParseId(id).value;
      var size := (c: Capture) => sizes.ofImage(c.imageData);
      SizeSumRemove(st.captures, k, size);
      SizeSumRemove(w.store.captures, k, size);
      assert w.store.captures - {k} == st.captures - {k};
    }
  }

  // ---------------------------------------------------------------- /api/stats

  datatype HourlyStat = HourlyStat(hour: string, captures: nat, responses: nat)
  datatype StorageUsage = StorageUsage(captures: nat, responses: nat, total: nat)
  datatype Stats = Stats(
    captures: nat,
    responses: nat,
    todayCaptures: nat,
    todayResponses: nat,
    storage: StorageUsage,
    hourly: seq<HourlyStat>)

  function Hourly(st: Store, now: int, i: nat): HourlyStat
  {
    HourlyStat(
      HourLabel(HourStart(now, i)),
      |Window(CaptureTimes(st.captures), HourStart(now, i), HourEnd(now, i))|,
      |Window(ResponseTimes(st.responses), HourStart(now, i), HourEnd(now, i))|)
  }

  /** What `get_stats` gathers; a database failure raises. */
  function GetStats(st: Store, now: int, sizes: Sizes): (r: Py<Stats>)
    ensures r.Raise? <==> !st.online
    ensures r.Value? ==>
      var s := r.value;
      && s.captures == |st.captures| && s.responses == |st.responses|
      && s.todayCaptures == |Since(CaptureTimes(st.captures), Midnight(now))|
      && s.todayResponses == |Since(ResponseTimes(st.responses), Midnight(now))|
      && s.storage.captures == CaptureBytes(st, sizes)
      && s.storage.responses == ResponseBytes(st, sizes)
      && s.storage.total == s.storage.captures + s.storage.responses
      && |s.hourly| == HourCount
      && forall i | 0 <= i < HourCount :: s.hourly[i] == Hourly(st, now, i)
  {
    if !st.online then Raise(ServerFault)
    else
      var captureBytes := CaptureBytes(st, sizes);
      var responseBytes := ResponseBytes(st, sizes);
      Value(Stats(
        |st.captures|,
        |st.responses|,
        |Since(CaptureTimes(st.captures), Midnight(now))|,
        |Since(ResponseTimes(st.responses), Midnight(now))|,
        StorageUsage(captureBytes, responseBytes, captureBytes + responseBytes),
        seq(HourCount, i requires 0 <= i < HourCount => Hourly(st, now, i))))
  }

  function CaptureCountOf(h: seq<HourlyStat>): nat
  {
    if h == [] then 0 else CaptureCountOf(h[..|h| - 1]) + h[|h| - 1].captures
  }

  function ResponseCountOf(h: seq<HourlyStat>): nat
  {
    if h == [] then 0 else ResponseCountOf(h[..|h| - 1]) + h[|h| - 1].responses
  }

  /** Bucket `i` of `/api/stats` is labelled with the hour it starts in and counts
      the documents stamped in `[now - (i + 1) hours, now - i hours)`. */
  lemma HourlyBucket(st: Store, now: int, sizes: Sizes, i: nat)
    requires st.online && i < HourCount
    ensures var b := GetStats(st, now, sizes).value.hourly[i];
      && b.hour == HourLabel(HourStart(now, i))
      && b.captures == |Window(CaptureTimes(st.captures), HourStart(now, i), HourEnd(now, i))|
      && b.responses == |Window(ResponseTimes(st.responses), HourStart(now, i), HourEnd(now, i))|
  {
    var b := GetStats(st, now, sizes).value.hourly[i];
    assert b == Hourly(st, now, i);
  }

  /** The hourly figures of `/api/stats` count every capture and every response of
      the last 24 hours exactly once. */
  lemma HourlyStatsCoverLastDay(st: Store, now: int, sizes: Sizes)
    requires st.online
    ensures var h := GetStats(st, now, sizes).value.hourly;
      && CaptureCountOf(h) == |Window(CaptureTimes(st.captures), now - Day, now)|
      && ResponseCountOf(h) == |Window(ResponseTimes(st.responses), now - Day, now)|
  {
    var h := GetStats(st, now, sizes).value.hourly;
    HourlyPrefix(st, now, h, HourCount);
    assert h[..HourCount] == h;
    BucketsTile(CaptureTimes(st.captures), now, HourCount);
    BucketsTile(ResponseTimes(st.responses), now, HourCount);
  }

  lemma {:induction false} HourlyPrefix(st: Store, now: int, h: seq<HourlyStat>, n: nat)
    requires n <= |h|
    requires forall i | 0 <= i < |h| :: h[i] == Hourly(st, now, i)
    ensures CaptureCountOf(h[..n]) == BucketSum(CaptureTimes(st.captures), now, n)
    ensures ResponseCountOf(h[..n]) == BucketSum(ResponseTimes(st.responses), now, n)
  {
    if n > 0 {
      HourlyPrefix(st, now, h, n - 1);
      var p := h[..n];
      assert p[..n - 1] == h[..n - 1];
      assert p[n - 1] == Hourly(st, now, n - 1);
    }
  }

  /** The "today" figures count exactly the documents stamped since local midnight,
      which include every document of the current hour's bucket when that bucket
      starts after midnight. */
  lemma TodayCountsSinceMidnight(st: Store, now: int, sizes: Sizes)
    requires st.online
    ensures var s := GetStats(st, now, sizes).value;
      && s.todayCaptures <= s.captures
      && s.todayResponses <= s.responses
      && (Midnight(now) <= HourStart(now, 0) ==> s.hourly[0].captures <= s.todayCaptures)
      && (Midnight(now) <= HourStart(now, 0) ==> s.hourly[0].responses <= s.todayResponses)
  {
    var times := CaptureTimes(st.captures);
    var rtimes := ResponseTimes(st.responses);
    SubsetCount(Since(times, Midnight(now)), st.captures.Keys);
    SubsetCount(Since(rtimes, Midnight(now)), st.responses.Keys);
    if Midnight(now) <= HourStart(now, 0) {
      SubsetCount(Window(times, HourStart(now, 0), HourEnd(now, 0)), Since(times, Midnight(now)));
      SubsetCount(Window(rtimes, HourStart(now, 0), HourEnd(now, 0)), Since(rtimes, Midnight(now)));
    }
  }

  lemma SubsetCount(a: set<Oid>, b: set<Oid>)
    requires a <= b
    ensures |a| <= |b|
  {
    assert b == a + (b - a);
  }

  function HourlyJson(h: HourlyStat): Json
  {
    JObj(map["hour" := JStr(h.hour), "captures" := JNum(h.captures), "responses" := JNum(h.responses)])
  }

  function StatsJson(s: Stats): Json
  {
    JObj(map[
      "total_stats" := JObj(map[
        "captures" := JNum(s.captures),
        "responses" := JNum(s.responses),
        "today_captures" := JNum(s.todayCaptures),
        "today_responses" := JNum(s.todayResponses),
        "storage_usage" := JObj(map[
          "captures" := JNum(s.storage.captures),
          "responses" := JNum(s.storage.responses),
          "total" := JNum(s.storage.total)])]),
      "hourly_stats" := JArr(seq(|s.hourly|, i requires 0 <= i < |s.hourly| => HourlyJson(s.hourly[i])))])
  }

  /** `GET /api/stats`. */
  function StatsRoute(st: Store, now: int, sizes: Sizes): (reply: Reply)
    ensures reply.status == 200 <==> st.online
    ensures !st.online ==> reply == FaultReply(ServerFault)
  {
    match GetStats(st, now, sizes)
    case Raise(f) => FaultReply(f)
    case Value(s) => Reply(200, JsonBody(StatsJson(s)))
  }

  // ---------------------------------------------------------------- /api/system

  datatype MongoCounts = MongoCounts(recentCaptures: nat, archivedCaptures: nat, recentResponses: nat)

  /** The three counts `get_system_info` asks the database for. */
  function SystemCounts(st: Store): (r: Py<MongoCounts>)
    ensures r.Raise? <==> !st.online
  {
    if !st.online then Raise(ServerFault)
    else Value(MongoCounts(|RecentIds(st)|, |ArchivedIds(st)|, |st.responses|))
  }

  /** Every capture is counted once, as recent or as archived, and the counts agree
      with what the capture listings return. */
  lemma SystemCountsAddUp(st: Store)
    requires st.online
    ensures var c := SystemCounts(st).value;
      && c.recentCaptures + c.archivedCaptures == |st.captures|
      && c.recentCaptures == |RecentCaptures(st, 0).value|
      && c.archivedCaptures == |ArchivedCaptures(st)|
      && c.recentResponses == |RecentResponses(st, 0).value|
  {
    RecentArchivedPartition(st);
  }

  /** `GET /api/system`: the log path and port come from the configuration. */
  function SystemInfoRoute(st: Store, logPath: string, port: int): (reply: Reply)
    ensures reply.status == 200 <==> st.online
    ensures !st.online ==> reply == FaultReply(ServerFault)
  {
    match SystemCounts(st)
    case Raise(f) => FaultReply(f)
    case Value(c) =>
      Reply(200, JsonBody(JObj(map[
        "folders" := JObj(map["logs" := JStr(logPath)]),
        "storage" := JObj(map["total_size" := JNum(0)]),
        "server" := JObj(map["port" := JNum(port), "debug" := JBool(true)]),
        "mongodb" := JObj(map[
          "recent_captures" := JNum(c.recentCaptures),
          "archived_captures" := JNum(c.archivedCaptures),
          "recent_responses" := JNum(c.recentResponses)])])))
  }

  // ---------------------------------------------------------------- /api/logs

  /** `GET /api/logs`: the tail of the log file, oldest line first, as plain text. */
  function LogsRoute(file: LogFile): (reply: Reply)
    ensures reply.status == 200 <==> file.Readable?
    ensures file.Missing? ==> reply == Reply(404, TextBody("No logs available"))
    ensures file.Unreadable? ==> reply == Reply(500, RaisedText(ReadFault))
  {
    match file
    case Missing => Reply(404, TextBody("No logs available"))
    case Unreadable => Reply(500, RaisedText(ReadFault))
    case Readable(text) => Reply(200, TextBody(JoinWith("\n", OldestFirstLines(text))))
  }

  /** `/api/logs` and `/server_logs` answer alike, except that one lists the
      gathered lines oldest first and the other newest first. */
  lemma LogRoutesDifferOnlyInOrder(file: LogFile)
    ensures LogsRoute(file).status == SpecialRoutes.ServerLogs(file).status
    ensures !file.Readable? ==> LogsRoute(file) == SpecialRoutes.ServerLogs(file)
    ensures file.Readable? ==>
      && SpecialRoutes.ServerLogs(file).body == TextBody(JoinWith("\n", NewestFirstLines(file.text)))
      && LogsRoute(file).body == TextBody(JoinWith("\n", Reverse(NewestFirstLines(file.text))))
  {
    if file.Readable? {
      LogEndpointsDisagreeOnlyInOrder(file.text);
    }
  }
}

=== FILE: db.dfy ===
/** The record store of `utils/db.py`: two collections, `captures` and
    `responses`, each a map from document id to document. `online` says whether
    the database server answers; when it does not, every driver call raises, and
    each operation takes the branch its own `except` clause gives it. */
module Db {
  import opened Prelude
  import opened JsonValues
  import opened ObjectIds
  import Ordering

  /** Where a capture saved from a file came from. */
  datatype SourceFile = SourceFile(filename: string, originalPath: string)

  /** One stored image. `imageData` is the base64 text of the image, kept opaque;
      `archived == None` means the document has no `archived` field. */
  datatype Capture = Capture(
    timestamp: int,
    imageData: string,
    fileType: string,
    archived: Option<bool>,
    source: Option<SourceFile>)

  /** One completed inference exchange. */
  datatype Response = Response(
    timestamp: int,
    message: Json,
    responseData: Json,
    captureIds: seq<Oid>)

  datatype Store = Store(
    captures: map<Oid, Capture>,
    responses: map<Oid, Response>,
    online: bool)

  /** A document as a query returns it: its `_id` and its fields. */
  datatype Record<T> = Record(id: Oid, doc: T)

  /** The store after a write, and what the write returned to its caller. */
  datatype Written<T> = Written(store: Store, result: T)

  /** Matched by `{'$or': [{'archived': False}, {'archived': {'$exists': False}}]}`. */
  predicate IsRecent(c: Capture)
  {
    c.archived == Some(false) || c.archived == None
  }

  /** Matched by `{'archived': True}`. */
  predicate IsArchived(c: Capture)
  {
    c.archived == Some(true)
  }

  function CaptureTimes(captures: map<Oid, Capture>): (t: map<Oid, int>)
    ensures t.Keys == captures.Keys
    ensures forall k | k in t :: t[k] == captures[k].timestamp
  {
    map k | k in captures :: captures[k].timestamp
  }

  function ResponseTimes(responses: map<Oid, Response>): (t: map<Oid, int>)
    ensures t.Keys == responses.Keys
    ensures forall k | k in t :: t[k] == responses[k].timestamp
  {
    map k | k in responses :: responses[k].timestamp
  }

  function RecentIds(st: Store): (s: set<Oid>)
    ensures s <= st.captures.Keys
    ensures forall k | k in st.captures :: k in s <==> IsRecent(st.captures[k])
  {
    set k | k in st.captures && IsRecent(st.captures[k])
  }

  function ArchivedIds(st: Store): (s: set<Oid>)
    ensures s <= st.captures.Keys
    ensures forall k | k in st.captures :: k in s <==> IsArchived(st.captures[k])
  {
    set k | k in st.captures && IsArchived(st.captures[k])
  }

  /** Every capture is recent or archived, never both. */
  lemma RecentArchivedPartition(st: Store)
    ensures RecentIds(st) !! ArchivedIds(st)
    ensures RecentIds(st) + ArchivedIds(st) == st.captures.Keys
  {
    forall k | k in st.captures
      ensures k in RecentIds(st) + ArchivedIds(st)
    {
      match st.captures[k].archived
      case None =>
      case Some(b) => if b { assert k in ArchivedIds(st); } else { assert k in RecentIds(st); }
    }
  }

  /** The documents of `m` with the given ids, in the given order. */
  function Records<T>(m: map<Oid, T>, ids: seq<Oid>): (r: seq<Record<T>>)
    requires forall i | 0 <= i < |ids| :: ids[i] in m
    ensures |r| == |ids|
    ensures forall i | 0 <= i < |r| :: r[i].id == ids[i] && r[i].doc == m[ids[i]]
  {
    seq(|ids|, i requires 0 <= i < |ids| => Record(ids[i], m[ids[i]]))
  }

  function Ids<T>(r: seq<Record<T>>): (ids: seq<Oid>)
    ensures |ids| == |r|
    ensures forall i | 0 <= i < |r| :: ids[i] == r[i].id
  {
    seq(|r|, i requires 0 <= i < |r| => r[i].id)
  }

  // ---------------------------------------------------------------- paths

  /** `Path(path).name`: the text after the last `/`. */
  function PathName(path: string): (name: string)
    ensures '/' !in name
    ensures |name| <= |path| && path[|path| - |name|..] == name
    ensures |name| == |path| || path[|path| - |name| - 1] == '/'
  {
    var i := LastIndexOf(path, '/');
    path[i + 1..]
  }

  /** `Path(path).suffix[1:]`: the extension after the last dot of the name, without
      the dot; empty when the name has no dot, starts with its only dot, or ends
      with a dot. */
  function FileType(name: string): (t: string)
    ensures '.' !in t
    ensures t != [] ==> |t| + 2 <= |name| && name[|name| - |t| - 1] == '.' && name[|name| - |t|..] == t
    ensures t == [] <==> LastIndexOf(name, '.') <= 0 || LastIndexOf(name, '.') == |name| - 1
  {
    var i := LastIndexOf(name, '.');
    if 0 < i < |name| - 1 then name[i + 1..] else []
  }

  // ---------------------------------------------------------------- writes

  /** `save_capture(image_path)`: `contents` is the base64 text of the file, or
      `None` when reading it fails. Inserts one recent capture tagged with the
      file's extension and origin under `newId`; `None` on any failure. */
  function SaveCapture(st: Store, path: string, contents: Option<string>, now: int, newId: Oid)
    : (w: Written<Option<string>>)
    ensures w.result.Some? <==> contents.Some? && st.online && newId !in st.captures
    ensures w.result.None? ==> w.store == st
    ensures w.result.Some? ==>
      && w.result.value == Render(newId)
      && newId in w.store.captures
      && var c := w.store.captures[newId];
      && w.store == st.(captures := st.captures[newId := c])
      && c.timestamp == now
      && c.imageData == contents.value
      && c.archived == Some(false)
      && c.fileType == FileType(PathName(path))
      && c.source == Some(SourceFile(PathName(path), path))
  {
    if contents.None? || !st.online || newId in st.captures then Written(st, None)
    else
      var name := PathName(path);
      var c := Capture(now, contents.value, FileType(name), Some(false), Some(SourceFile(name, path)));
      Written(st.(captures := st.captures[newId := c]), Some(Render(newId)))
  }

  /** `save_capture_data(image_data)`: inserts one recent PNG capture under `newId`
      and returns its id text; `None` (and no change) on failure. */
  function SaveCaptureData(st: Store, imageData: string, now: int, newId: Oid)
    : (w: Written<Option<string>>)
    ensures w.result.Some? <==> st.online && newId !in st.captures
    ensures w.result.None? ==> w.store == st
    ensures w.result.Some? ==>
      && w.result.value == Render(newId)
      && newId !in st.captures
      && w.store == st.(captures := st.captures[newId := Capture(now, imageData, "png", Some(false), None)])
  {
    if !st.online || newId in st.captures then Written(st, None)
    else
      var c := Capture(now, imageData, "png", Some(false), None);
      Written(st.(captures := st.captures[newId := c]), Some(Render(newId)))
  }

  /** The fields a caller may pass to `save_response`; `None` means the key is absent. */
  datatype ResponseFields = ResponseFields(
    timestamp: Option<int>,
    message: Option<Json>,
    responseData: Option<Json>,
    captureIds: Option<seq<Json>>)

  /** `[ObjectId(id) for id in ids]`: element `i` is converted by `ObjectIdOf`,
      with `mint(i)` the id a null element generates; `None` when any element
      raises. */
  function ParseAll(ids: seq<Json>, mint: nat -> Oid): (r: Option<seq<Oid>>)
    ensures r.Some? <==> forall i | 0 <= i < |ids| :: ids[i].JNull? || ParseId(ids[i]).Some?
    ensures r.Some? ==>
      && |r.value| == |ids|
      && (forall i | 0 <= i < |ids| && ids[i].JNull? :: r.value[i] == mint(i))
      && (forall i | 0 <= i < |ids| && !ids[i].JNull? :: r.value[i] == ParseId(ids[i]).value)
  {
    if ids == [] then Some([])
    else
      var head := ObjectIdOf(ids[0], mint(0));
      var tail := ParseAll(ids[1..], i => mint(i + 1));
      ParseAllStep(ids, mint, i => mint(i + 1), head, tail);
      if head.None? || tail.None? then None else Some([head.value] + tail.value)
  }

  /** One step of `ParseAll`: the first element's conversion in front of the rest's. */
  lemma ParseAllStep(ids: seq<Json>, mint: nat -> Oid, restMint: nat -> Oid, head: Option<Oid>, tail: Option<seq<Oid>>)
    requires ids != [] && head == ObjectIdOf(ids[0], mint(0))
    requires forall i: nat :: restMint(i) == mint(i + 1)
    requires tail.Some? <==> forall i | 0 <= i < |ids[1..]| :: ids[1..][i].JNull? || ParseId(ids[1..][i]).Some?
    requires tail.Some? ==>
      && |tail.value| == |ids[1..]|
      && (forall i | 0 <= i < |ids[1..]| && ids[1..][i].JNull? :: tail.value[i] == restMint(i))
      && (forall i | 0 <= i < |ids[1..]| && !ids[1..][i].JNull? :: tail.value[i] == ParseId(ids[1..][i]).value)
    ensures head.Some? && tail.Some? <==> forall i | 0 <= i < |ids| :: ids[i].JNull? || ParseId(ids[i]).Some?
    ensures head.Some? && tail.Some? ==>
      var r := [head.value] + tail.value;
      && |r| == |ids|
      && (forall i | 0 <= i < |ids| && ids[i].JNull? :: r[i] == mint(i))
      && (forall i | 0 <= i < |ids| && !ids[i].JNull? :: r[i] == ParseId(ids[i]).value)
  {
    assert forall i | 1 <= i < |ids| :: ids[i] == ids[1..][i - 1];
    if head.Some? && tail.Some? {
      var r := [head.value] + tail.value;
      assert forall i | 1 <= i < |ids| :: r[i] == tail.value[i - 1];
    }
  }

  /** The document `save_response` builds: the time, `''` and `{}` stand in for
      missing `timestamp`, `message` and `response_data`. */
  function ResponseDocument(fields: ResponseFields, ids: seq<Oid>, now: int): Response
  {
    Response(
      if fields.timestamp.Some? then fields.timestamp.value else now,
      if fields.message.Some? then fields.message.value else JStr(""),
      if fields.responseData.Some? then fields.responseData.value else JObj(map[]),
      ids)
  }

  /** `save_response(response_data)`: inserts one response under `newId` whose
      capture ids are the converted `capture_ids`, where a null element stands for
      the new id `mint(i)` that `ObjectId(None)` generates; `None`, with nothing
      inserted, if any capture id is malformed or the insert fails. */
  function SaveResponse(st: Store, fields: ResponseFields, now: int, newId: Oid, mint: nat -> Oid)
    : (w: Written<Option<string>>)
    ensures var raw := if fields.captureIds.Some? then fields.captureIds.value else [];
      w.result.Some? <==>
        && (forall i | 0 <= i < |raw| :: raw[i].JNull? || ParseId(raw[i]).Some?)
        && st.online
        && newId !in st.responses
    ensures w.result.None? ==> w.store == st
    ensures w.result.Some? ==>
      && w.result.value == Render(newId)
      && newId in w.store.responses
      && var rsp := w.store.responses[newId];
      && w.store == st.(responses := st.responses[newId := rsp])
      && rsp.timestamp == (if fields.timestamp.Some? then fields.timestamp.value else now)
      && rsp.message == (if fields.message.Some? then fields.message.value else JStr(""))
      && rsp.responseData == (if fields.responseData.Some? then fields.responseData.value else JObj(map[]))
      && var raw := if fields.captureIds.Some? then fields.captureIds.value else [];
      && |rsp.captureIds| == |raw|
      && (forall i | 0 <= i < |raw| && raw[i].JNull? :: rsp.captureIds[i] == mint(i))
      && (forall i | 0 <= i < |raw| && !raw[i].JNull? :: rsp.captureIds[i] == ParseId(raw[i]).value)
  {
    var raw := if fields.captureIds.Some? then fields.captureIds.value else [];
    match ParseAll(raw, mint)
    case None => Written(st, None)
    case Some(ids) =>
      if !st.online || newId in st.responses then Written(st, None)
      else Written(st.(responses := st.responses[newId := ResponseDocument(fields, ids, now)]), Some(Render(newId)))
  }

  /** `archive_capture` (`flag == true`) and `unarchive_capture` (`flag == false`):
      `$set` the flag on the matching capture. True exactly when a document was
      modified, i.e. the id is well formed, names a capture, and the flag was not
      already `flag`; only that capture's flag changes. */
  function SetArchived(st: Store, id: Json, flag: bool): (w: Written<bool>)
    ensures w.result <==>
      && st.online
      && ParseId(id).Some?
      && ParseId(id).value in st.captures
      && st.captures[ParseId(id).value].archived != Some(flag)
    ensures !w.result ==> w.store == st
    ensures w.result ==>
      var k := ParseId(id).value;
      w.store == st.(captures := st.captures[k := st.captures[k].(archived := Some(flag))])
  {
    if !st.online then Written(st, false)
    else match ParseId(id)
      case None => Written(st, false)
      case Some(k) =>
        if k in st.captures && st.captures[k].archived != Some(flag) then
          Written(st.(captures := st.captures[k := st.captures[k].(archived := Some(flag))]), true)
        else Written(st, false)
  }

  function ArchiveCapture(st: Store, id: Json): (w: Written<bool>)
    ensures w.result <==>
      st.online && ParseId(id).Some? && ParseId(id).value in st.captures
      && !IsArchived(st.captures[ParseId(id).value])
    ensures w.result ==> ParseId(id).value in ArchivedIds(w.store) && ParseId(id).value !in RecentIds(w.store)
    ensures w == SetArchived(st, id, true)
  {
    SetArchived(st, id, true)
  }

  function UnarchiveCapture(st: Store, id: Json): (w: Written<bool>)
    ensures w.result <==>
      st.online && ParseId(id).Some? && ParseId(id).value in st.captures
      && st.captures[ParseId(id).value].archived != Some(false)
    ensures w.result ==> ParseId(id).value in RecentIds(w.store) && ParseId(id).value !in ArchivedIds(w.store)
    ensures w == SetArchived(st, id, false)
  {
    SetArchived(st, id, false)
  }

  /** `delete_capture`: true exactly when a capture with that id existed; only it is removed. */
  function DeleteCapture(st: Store, id: Json): (w: Written<bool>)
    ensures w.result <==> st.online && ParseId(id).Some? && ParseId(id).value in st.captures
    ensures !w.result ==> w.store == st
    ensures w.result ==> w.store == st.(captures := st.captures - {ParseId(id).value})
  {
    if !st.online then Written(st, false)
    else match ParseId(id)
      case None => Written(st, false)
      case Some(k) =>
        if k in st.captures then Written(st.(captures := st.captures - {k}), true)
        else Written(st, false)
  }

  /** `delete_response`: true exactly when a response with that id existed; only it is removed. */
  function DeleteResponse(st: Store, id: Json): (w: Written<bool>)
    ensures w.result <==> st.online && ParseId(id).Some? && ParseId(id).value in st.responses
    ensures !w.result ==> w.store == st
    ensures w.result ==> w.store == st.(responses := st.responses - {ParseId(id).value})
  {
    if !st.online then Written(st, false)
    else match ParseId(id)
      case None => Written(st, false)
      case Some(k) =>
        if k in st.responses then Written(st.(responses := st.responses - {k}), true)
        else Written(st, false)
  }

  // ---------------------------------------------------------------- reads

  /** `get_capture`: the capture with that id, `None` when absent, malformed or on error. */
  function GetCapture(st: Store, id: Json): (r: Option<Capture>)
    ensures r.Some? <==> st.online && ParseId(id).Some? && ParseId(id).value in st.captures
    ensures r.Some? ==> r.value == st.captures[ParseId(id).value]
  {
    if !st.online then None
    else match ParseId(id)
      case None => None
      case Some(k) => if k in st.captures then Some(st.captures[k]) else None
  }

  /** `get_response`: the response with that id, `None` when absent, malformed or on error. */
  function GetResponse(st: Store, id: Json): (r: Option<Response>)
    ensures r.Some? <==> st.online && ParseId(id).Some? && ParseId(id).value in st.responses
    ensures r.Some? ==> r.value == st.responses[ParseId(id).value]
  {
    if !st.online then None
    else match ParseId(id)
      case None => None
      case Some(k) => if k in st.responses then Some(st.responses[k]) else None
  }

  /** `get_recent_captures(limit)`: recent captures only, newest first, at most
      `limit` of them (a limit of 0 lifts the cap), and no recent capture left out
      is newer than one returned. It has no `except`, so a dead server raises. */
  function RecentCaptures(st: Store, limit: nat): (r: Py<seq<Record<Capture>>>)
    ensures r.Raise? <==> !st.online
    ensures r.Value? ==>
      var docs := r.value;
      && (forall i | 0 <= i < |docs| ::
            docs[i].id in st.captures && docs[i].doc == st.captures[docs[i].id] && IsRecent(docs[i].doc))
      && |docs| == (if limit == 0 || |RecentIds(st)| <= limit then |RecentIds(st)| else limit)
      && (limit > 0 ==> |docs| <= limit)
      && Ordering.NewestFirst(CaptureTimes(st.captures), Ids(docs))
      && (limit == 0 || |RecentIds(st)| <= limit ==> forall k | k in RecentIds(st) :: k in Ids(docs))
      && (forall k | k in RecentIds(st) && k !in Ids(docs) ::
            forall i | 0 <= i < |docs| :: docs[i].doc.timestamp >= st.captures[k].timestamp)
  {
    if !st.online then Raise(ServerFault)
    else
      var times := CaptureTimes(st.captures);
      var ids := Ordering.Listing(times, RecentIds(st), limit);
      var docs := Records(st.captures, ids);
      assert Ids(docs) == ids;
      Value(docs)
  }

  /** `get_archived_captures()`: every archived capture, newest first; `[]` on error. */
  function ArchivedCaptures(st: Store): (r: seq<Record<Capture>>)
    ensures !st.online ==> r == []
    ensures forall i | 0 <= i < |r| ::
      r[i].id in st.captures && r[i].doc == st.captures[r[i].id] && IsArchived(r[i].doc)
    ensures st.online ==> forall k | k in ArchivedIds(st) :: k in Ids(r)
    ensures st.online ==> |r| == |ArchivedIds(st)|
    ensures Ordering.NewestFirst(CaptureTimes(st.captures), Ids(r))
  {
    if !st.online then []
    else
      var ids := Ordering.Listing(CaptureTimes(st.captures), ArchivedIds(st), 0);
      var docs := Records(st.captures, ids);
      assert Ids(docs) == ids;
      docs
  }

  /** A response left out of the listing is no newer than any listed one. */
  lemma OutsideListingIsOlder(responses: map<Oid, Response>, limit: nat)
    ensures var ids := Ordering.Listing(ResponseTimes(responses), responses.Keys, limit);
      forall k | k in responses && k !in ids ::
        forall i | 0 <= i < |ids| :: responses[ids[i]].timestamp >= responses[k].timestamp
  {
    var times := ResponseTimes(responses);
    var ids := Ordering.Listing(times, responses.Keys, limit);
    forall k, i | k in responses && k !in ids && 0 <= i < |ids|
      ensures responses[ids[i]].timestamp >= responses[k].timestamp
    {
      assert Ordering.Precedes(times, ids[i], k);
    }
  }

  /** `get_recent_responses(limit)`: responses newest first, at most `limit` (0: all). */
  function RecentResponses(st: Store, limit: nat): (r: Py<seq<Record<Response>>>)
    ensures r.Raise? <==> !st.online
    ensures r.Value? ==>
      var docs := r.value;
      && (forall i | 0 <= i < |docs| ::
            docs[i].id in st.responses && docs[i].doc == st.responses[docs[i].id])
      && |docs| == (if limit == 0 || |st.responses| <= limit then |st.responses| else limit)
      && Ordering.NewestFirst(ResponseTimes(st.responses), Ids(docs))
      && (limit == 0 || |st.responses| <= limit ==> forall k | k in st.responses :: k in Ids(docs))
      && (forall k | k in st.responses && k !in Ids(docs) ::
            forall i | 0 <= i < |docs| :: docs[i].doc.timestamp >= st.responses[k].timestamp)
  {
    if !st.online then Raise(ServerFault)
    else
      var ids := Ordering.Listing(ResponseTimes(st.responses), st.responses.Keys, limit);
      var docs := Records(st.responses, ids);
      assert Ids(docs) == ids;
      OutsideListingIsOlder(st.responses, limit);
      Value(docs)
  }
}

=== FILE: http.dfy ===
/** What a Flask handler hands back: a status code and a body. */
module Http {
  import opened Prelude
  import opened JsonValues

  datatype Body =
    | JsonBody(value: Json)   // `jsonify(...)`
    | TextBody(text: string)  // a plain string returned as the response
    | Raised(fault: Fault)    // `{'error': str(e)}` for a caught exception, whose wording is not modelled
    | RaisedText(fault: Fault) // the bare `str(e)` of a caught exception
    | RaisedStatus(fault: Fault) // `{"status": "error", "message": str(e)}` for a caught exception

  datatype Reply = Reply(status: int, body: Body)

  /** `jsonify({'error': message}), status`. */
  function ErrorReply(status: int, message: string): Reply
  {
    Reply(status, JsonBody(JObj(map["error" := JStr(message)])))
  }

  /** `jsonify({'error': str(e)}), 500`: what every handler's outer `except` returns. */
  function FaultReply(fault: Fault): Reply
  {
    Reply(500, Raised(fault))
  }
}

=== FILE: json.dfy ===
/** JSON values as a Flask handler sees them after `request.json`, with the
    Python semantics the handlers rely on: truthiness (`not data`), the
    membership test (`'key' in data`) and subscription (`data['key']`). */
module JsonValues {
  import opened Prelude

  /** A decoded JSON document. Numbers are integers; floating point is not modelled. */
  datatype Json =
    | JNull
    | JBool(b: bool)
    | JNum(n: int)
    | JStr(s: string)
    | JArr(items: seq<Json>)
    | JObj(fields: map<string, Json>)

  /** Python truthiness: `None`, `False`, `0`, `''`, `[]` and `{}` are false. */
  predicate Truthy(j: Json)
  {
    match j
    case JNull => false
    case JBool(b) => b
    case JNum(n) => n != 0
    case JStr(s) => s != ""
    case JArr(items) => items != []
    case JObj(fields) => fields != map[]
  }

  /** `key` occurs in `s` as a contiguous piece (Python `key in s` on strings). */
  predicate IsSubstring(key: string, s: string)
  {
    exists i | 0 <= i <= |s| - |key| :: OccursAt(key, s, i)
  }

  predicate OccursAt(key: string, s: string, i: int)
    requires 0 <= i <= |s| - |key|
  {
    s[i..i + |key|] == key
  }

  /** Python `key in data` for a string `key`: a dict tests its keys, a list its
      elements, a string its substrings; numbers, booleans and None raise TypeError. */
  function KeyIn(key: string, data: Json): (r: Py<bool>)
    ensures r.Raise? <==> data.JNull? || data.JBool? || data.JNum?
    ensures r.Raise? ==> r.fault == TypeFault
    ensures data.JObj? ==> r == Value(key in data.fields)
  {
    match data
    case JObj(fields) => Value(key in fields)
    case JArr(items) => Value(JStr(key) in items)
    case JStr(s) => Value(IsSubstring(key, s))
    case _ => Raise(TypeFault)
  }

  /** Python `data[key]` for a string `key`: only a dict that holds the key yields a
      value; a missing key raises KeyError (reported here as a TypeFault, since every
      caller tests membership first) and every other kind of value raises TypeError. */
  function Subscript(data: Json, key: string): (r: Py<Json>)
    ensures r.Value? <==> data.JObj? && key in data.fields
    ensures r.Value? ==> r.value == data.fields[key]
  {
    match data
    case JObj(fields) => if key in fields then Value(fields[key]) else Raise(TypeFault)
    case _ => Raise(TypeFault)
  }
}

=== FILE: lifecycle.dfy ===
/** How the store's writes move one capture between the recent and the archived
    listing of `utils/db.py`, and what repeating a write does. */
module Lifecycle {
  import opened Prelude
  import opened JsonValues
  import opened ObjectIds
  import opened Db

  /** Archiving moves exactly the named capture from the recent set to the archived set. */
  lemma ArchiveMovesToArchived(st: Store, id: Json)
    requires ArchiveCapture(st, id).result
    ensures var k, st' := ParseId(id).value, ArchiveCapture(st, id).store;
      && RecentIds(st') == RecentIds(st) - {k}
      && ArchivedIds(st') == ArchivedIds(st) + {k}
      && st'.captures.Keys == st.captures.Keys
      && st'.responses == st.responses
  {
    var k, st' := ParseId(id).value, ArchiveCapture(st, id).store;
    assert RecentIds(st') == RecentIds(st) - {k} by {
      forall j | j in st.captures ensures j in RecentIds(st') <==> j in RecentIds(st) - {k} {
        if j != k { assert st'.captures[j] == st.captures[j]; }
      }
    }
    assert ArchivedIds(st') == ArchivedIds(st) + {k} by {
      forall j | j in st.captures ensures j in ArchivedIds(st') <==> j in ArchivedIds(st) + {k} {
        if j != k { assert st'.captures[j] == st.captures[j]; }
      }
    }
  }

  /** Unarchiving moves exactly the named capture from the archived set to the recent set. */
  lemma UnarchiveMovesToRecent(st: Store, id: Json)
    requires UnarchiveCapture(st, id).result
    ensures var k, st' := ParseId(id).value, UnarchiveCapture(st, id).store;
      && RecentIds(st') == RecentIds(st) + {k}
      && ArchivedIds(st') == ArchivedIds(st) - {k}
      && st'.captures.Keys == st.captures.Keys
      && st'.responses == st.responses
  {
    var k, st' := ParseId(id).value, UnarchiveCapture(st, id).store;
    assert RecentIds(st') == RecentIds(st) + {k} by {
      forall j | j in st.captures ensures j in RecentIds(st') <==> j in RecentIds(st) + {k} {
        if j != k { assert st'.captures[j] == st.captures[j]; }
      }
    }
    assert ArchivedIds(st') == ArchivedIds(st) - {k} by {
      forall j | j in st.captures ensures j in ArchivedIds(st') <==> j in ArchivedIds(st) - {k} {
        if j != k { assert st'.captures[j] == st.captures[j]; }
      }
    }
  }

  /** Setting `archived: True` on a set of captures moves exactly those from the
      recent set to the archived set. */
  lemma ArchiveSetMoves(st: Store, st': Store, sent: set<Oid>)
    requires sent <= st.captures.Keys
    requires st'.captures.Keys == st.captures.Keys
    requires forall k | k in st.captures ::
      st'.captures[k] == if k in sent then st.captures[k].(archived := Some(true)) else st.captures[k]
    ensures RecentIds(st') == RecentIds(st) - sent
    ensures ArchivedIds(st') == ArchivedIds(st) + sent
  {
    assert RecentIds(st') == RecentIds(st) - sent by {
      forall j | j in st.captures ensures j in RecentIds(st') <==> j in RecentIds(st) - sent {
        if j !in sent { assert st'.captures[j] == st.captures[j]; }
      }
    }
    assert ArchivedIds(st') == ArchivedIds(st) + sent by {
      forall j | j in st.captures ensures j in ArchivedIds(st') <==> j in ArchivedIds(st) + sent {
        if j !in sent { assert st'.captures[j] == st.captures[j]; }
      }
    }
  }

  /** Archiving then unarchiving a capture gives back the same two listings, and
      the very same store when the capture carried `archived: False` before. */
  lemma ArchiveThenUnarchive(st: Store, id: Json)
    requires ArchiveCapture(st, id).result
    ensures var w := UnarchiveCapture(ArchiveCapture(st, id).store, id);
      && w.result
      && RecentIds(w.store) == RecentIds(st)
      && ArchivedIds(w.store) == ArchivedIds(st)
      && (st.captures[ParseId(id).value].archived == Some(false) ==> w.store == st)
  {
    var k := ParseId(id).value;
    var st1 := ArchiveCapture(st, id).store;
    ArchiveMovesToArchived(st, id);
    UnarchiveMovesToRecent(st1, id);
    assert k !in ArchivedIds(st);
    RecentArchivedPartition(st);
    if st.captures[k].archived == Some(false) {
      var w := UnarchiveCapture(st1, id);
      assert w.store.captures[k] == st.captures[k];
      assert w.store.captures == st.captures;
    }
  }

  /** Archiving twice: the second call reports nothing modified and changes nothing. */
  lemma ArchiveTwice(st: Store, id: Json)
    requires ArchiveCapture(st, id).result
    ensures var st1 := ArchiveCapture(st, id).store;
      !ArchiveCapture(st1, id).result && ArchiveCapture(st1, id).store == st1
  {
  }

  /** Unarchiving twice: the second call reports nothing modified and changes nothing. */
  lemma UnarchiveTwice(st: Store, id: Json)
    requires UnarchiveCapture(st, id).result
    ensures var st1 := UnarchiveCapture(st, id).store;
      !UnarchiveCapture(st1, id).result && UnarchiveCapture(st1, id).store == st1
  {
  }

  /** Deleting twice: the second call finds nothing to delete. */
  lemma DeleteTwice(st: Store, id: Json)
    ensures var st1 := DeleteCapture(st, id).store;
      !DeleteCapture(st1, id).result && DeleteCapture(st1, id).store == st1
    ensures var st1 := DeleteResponse(st, id).store;
      !DeleteResponse(st1, id).result && DeleteResponse(st1, id).store == st1
  {
  }

  /** A deleted capture leaves both listings, and nothing else leaves them. */
  lemma DeleteLeavesListings(st: Store, id: Json)
    requires DeleteCapture(st, id).result
    ensures var k, st' := ParseId(id).value, DeleteCapture(st, id).store;
      && RecentIds(st') == RecentIds(st) - {k}
      && ArchivedIds(st') == ArchivedIds(st) - {k}
      && GetCapture(st', id).None?
  {
    var k, st' := ParseId(id).value, DeleteCapture(st, id).store;
    assert RecentIds(st') == RecentIds(st) - {k} by {
      forall j | j in st.captures ensures j in RecentIds(st') <==> j in RecentIds(st) - {k} {
        if j != k { assert st'.captures[j] == st.captures[j]; }
      }
    }
    assert ArchivedIds(st') == ArchivedIds(st) - {k} by {
      forall j | j in st.captures ensures j in ArchivedIds(st') <==> j in ArchivedIds(st) - {k} {
        if j != k { assert st'.captures[j] == st.captures[j]; }
      }
    }
  }

  /** Inserting one capture that is not archived under a fresh id adds it to the
      recent set and leaves the archived set alone. */
  lemma InsertRecent(st: Store, newId: Oid, c: Capture)
    requires c.archived == Some(false)
    ensures var st' := st.(captures := st.captures[newId := c]);
      && RecentIds(st') == RecentIds(st) + {newId}
      && ArchivedIds(st') == ArchivedIds(st) - {newId}
  {
    var st' := st.(captures := st.captures[newId := c]);
    assert RecentIds(st') == RecentIds(st) + {newId} by {
      forall j | j in st'.captures ensures j in RecentIds(st') <==> j in RecentIds(st) + {newId} {
        if j != newId { assert st'.captures[j] == st.captures[j]; }
      }
    }
    assert ArchivedIds(st') == ArchivedIds(st) - {newId} by {
      forall j | j in st'.captures ensures j in ArchivedIds(st') <==> j in ArchivedIds(st) - {newId} {
        if j != newId { assert st'.captures[j] == st.captures[j]; }
      }
    }
  }

  /** A new capture is recent: it joins the recent set and the archived set is unchanged. */
  lemma SavedCaptureIsRecent(st: Store, imageData: string, now: int, newId: Oid)
    requires SaveCaptureData(st, imageData, now, newId).result.Some?
    ensures var st' := SaveCaptureData(st, imageData, now, newId).store;
      && RecentIds(st') == RecentIds(st) + {newId}
      && ArchivedIds(st') == ArchivedIds(st)
  {
    var st' := SaveCaptureData(st, imageData, now, newId).store;
    InsertRecent(st, newId, st'.captures[newId]);
    assert newId !in ArchivedIds(st);
  }

  /** A capture saved from a file is recent too, and can be fetched back by the
      id text it was saved under. */
  lemma SavedFileIsRecent(st: Store, path: string, contents: Option<string>, now: int, newId: Oid)
    requires contents.Some? && st.online && newId !in st.captures
    ensures var w := SaveCapture(st, path, contents, now, newId);
      && RecentIds(w.store) == RecentIds(st) + {newId}
      && ArchivedIds(w.store) == ArchivedIds(st)
      && GetCapture(w.store, JStr(w.result.value)) == Some(w.store.captures[newId])
  {
    var w := SaveCapture(st, path, contents, now, newId);
    InsertedCaptureFacts(st, w.store, newId, w.store.captures[newId]);
  }

  /** What inserting one capture that is not archived under a fresh id does to
      the two listing sets and to the lookup by its id text. */
  lemma InsertedCaptureFacts(st: Store, st': Store, newId: Oid, c: Capture)
    requires st.online && newId !in st.captures && c.archived == Some(false)
    requires st' == st.(captures := st.captures[newId := c])
    ensures RecentIds(st') == RecentIds(st) + {newId}
    ensures ArchivedIds(st') == ArchivedIds(st)
    ensures GetCapture(st', JStr(Render(newId))) == Some(c)
  {
    InsertRecent(st, newId, c);
    FoundByRenderedId(st', newId);
  }

  /** A stored capture is found by its rendered id text. */
  lemma FoundByRenderedId(st: Store, k: Oid)
    requires st.online && k in st.captures
    ensures GetCapture(st, JStr(Render(k))) == Some(st.captures[k])
  {
    ParseRender(k);
  }

  /** A saved response is found again by the id text `save_response` returns, and
      every response stored before reads back as it was. */
  lemma SavedResponseIsFound(st: Store, fields: ResponseFields, now: int, newId: Oid, mint: nat -> Oid)
    requires SaveResponse(st, fields, now, newId, mint).result.Some?
    ensures var w := SaveResponse(st, fields, now, newId, mint);
      && GetResponse(w.store, JStr(w.result.value)) == Some(w.store.responses[newId])
      && forall k | k in st.responses :: GetResponse(w.store, JStr(Render(k))) == GetResponse(st, JStr(Render(k)))
  {
    var w := SaveResponse(st, fields, now, newId, mint);
    ParseRender(newId);
    forall k | k in st.responses
      ensures GetResponse(w.store, JStr(Render(k))) == GetResponse(st, JStr(Render(k)))
    {
      ParseRender(k);
    }
  }

  /** An id text that is not 24 hexadecimal digits never reaches the store: every
      write by id reports failure and changes nothing, and every read by id finds
      nothing. */
  lemma MalformedIdTouchesNothing(st: Store, id: Json)
    requires ParseId(id).None?
    ensures ArchiveCapture(st, id) == Written(st, false)
    ensures UnarchiveCapture(st, id) == Written(st, false)
    ensures DeleteCapture(st, id) == Written(st, false)
    ensures DeleteResponse(st, id) == Written(st, false)
    ensures GetCapture(st, id).None? && GetResponse(st, id).None?
  {
  }
}

=== FILE: log_tail.dfy ===
/** The backward, chunked tail of the server log shared by `/server_logs`
    (routes/special_routes.py) and `/api/logs` (routes/dashboard.py).

    The file is a character sequence and a position is an index into it. Reading
    starts at the end and steps back 4096 characters at a time; each chunk is split
    into lines on its own and put in front of the lines gathered so far, until at
    least 1000 lines are gathered or the start of the file is reached. Because the
    chunks are split separately, a line that straddles a chunk boundary comes out
    as two entries (`StraddlingLineIsSplit`); only a file that fits in one chunk
    yields exactly its own lines (`SingleChunkTail`). */
module LogTail {
  import opened Prelude

  /** The log file as the handlers find it: absent, present but failing to open
      or read, or readable with the given text. */
  datatype LogFile = Missing | Unreadable | Readable(text: string)

  const ChunkSize: nat := 4096
  const MaxLines: nat := 1000

  /** The characters `str.splitlines` ends a line at. */
  predicate IsLineBreak(c: char)
  {
    var n := c as int;
    n == 0x0A || n == 0x0D || n == 0x0B || n == 0x0C || n == 0x1C || n == 0x1D || n == 0x1E
    || n == 0x85 || n == 0x2028 || n == 0x2029
  }

  predicate NoLineBreak(s: string)
  {
    forall i | 0 <= i < |s| :: !IsLineBreak(s[i])
  }

  /** Index of the first line break of `s`, or `|s|`. */
  function LineEnd(s: string): (e: nat)
    ensures e <= |s|
    ensures NoLineBreak(s[..e])
    ensures e < |s| ==> IsLineBreak(s[e])
  {
    if s == [] || IsLineBreak(s[0]) then 0
    else
      var e := 1 + LineEnd(s[1..]);
      assert s[..e] == [s[0]] + s[1..][..e - 1];
      e
  }

  /** `s.splitlines()`: the lines of `s` without their terminators, where `\r\n`
      ends a single line and a final terminator adds no empty line. */
  function SplitLines(s: string): (lines: seq<string>)
    ensures forall i | 0 <= i < |lines| :: NoLineBreak(lines[i])
    ensures |lines| <= |s|
    ensures s != [] ==> lines != []
    decreases |s|
  {
    if s == [] then []
    else [s[..LineEnd(s)]] + SplitLines(s[NextStart(s)..])
  }

  /** Where the line after the first one starts: just past the first terminator,
      which is two characters long for `\r\n`. */
  function NextStart(s: string): (n: nat)
    ensures LineEnd(s) <= n <= |s|
    ensures n == LineEnd(s) <==> LineEnd(s) == |s|
    ensures forall i | LineEnd(s) <= i < n :: IsLineBreak(s[i])
  {
    var e := LineEnd(s);
    if e == |s| then e
    else if s[e] == '\r' && e + 1 < |s| && s[e + 1] == '\n' then e + 2
    else e + 1
  }

  /** A text without line breaks is a single line. */
  lemma SplitSingleLine(s: string)
    requires s != [] && NoLineBreak(s)
    ensures SplitLines(s) == [s]
  {
    assert LineEnd(s) == |s|;
    assert s[..|s|] == s && s[|s|..] == [];
  }

  lemma NoLineBreakSlice(s: string, i: nat, j: nat)
    requires NoLineBreak(s) && i <= j <= |s|
    ensures NoLineBreak(s[i..j])
  {
    forall k | 0 <= k < j - i ensures !IsLineBreak(s[i..j][k]) {
      assert s[i..j][k] == s[i + k];
    }
  }

  /** The text with every line-break character removed. */
  function DropBreaks(s: string): (r: string)
    ensures |r| <= |s|
    ensures NoLineBreak(r)
  {
    if s == [] then []
    else (if IsLineBreak(s[0]) then [] else [s[0]]) + DropBreaks(s[1..])
  }

  /** `str.splitlines` undoes joining with `'\n'`: lines without breaks, the last
      one not empty, joined with newlines, split back into the same lines. */
  lemma {:induction false} SplitLinesOfJoin(ls: seq<string>)
    requires ls != [] && ls[|ls| - 1] != []
    requires forall i | 0 <= i < |ls| :: NoLineBreak(ls[i])
    ensures SplitLines(JoinWith("\n", ls)) == ls
    decreases |ls|
  {
    if |ls| == 1 {
      SplitSingleLine(ls[0]);
    } else {
      var rest := JoinWith("\n", ls[1..]);
      var s := ls[0] + "\n" + rest;
      var e := |ls[0]|;
      assert s[..e] == ls[0] && s[e] == '\n' && s[e + 1..] == rest;
      LineEndAt(s, e);
      assert NextStart(s) == e + 1;
      SplitLinesOfJoin(ls[1..]);
    }
  }

  /** A position with no break before it and a break at it is the first break. */
  lemma LineEndAt(s: string, e: nat)
    requires e < |s| && NoLineBreak(s[..e]) && IsLineBreak(s[e])
    ensures LineEnd(s) == e
  {
    var f := LineEnd(s);
    assert forall i | 0 <= i < e :: s[..e][i] == s[i];
    assert forall i | 0 <= i < f :: s[..f][i] == s[i];
  }

  /** The number of line endings of `s`, read from left to right: `\r\n` is one
      ending, and every other line-break character is one. */
  function BreakCount(s: string): nat
    decreases |s|
  {
    if s == [] then 0
    else if |s| > 1 && s[0] == '\r' && s[1] == '\n' then 1 + BreakCount(s[2..])
    else (if IsLineBreak(s[0]) then 1 else 0) + BreakCount(s[1..])
  }

  /** `''.join(lines)`. */
  function Concat(lines: seq<string>): string
  {
    if lines == [] then [] else lines[0] + Concat(lines[1..])
  }

  /** `str.splitlines` loses nothing but the terminators: the lines put back
      together are the text without its line breaks. */
  lemma {:induction false} SplitLinesConcat(s: string)
    ensures Concat(SplitLines(s)) == DropBreaks(s)
    decreases |s|
  {
    if s != [] {
      var lines := SplitLines(s);
      var rest := s[NextStart(s)..];
      SplitLinesConcat(rest);
      assert lines == [s[..LineEnd(s)]] + SplitLines(rest);
      assert lines[1..] == SplitLines(rest);
      DropBreaksFirstLine(s);
    }
  }

  /** Removing the breaks keeps the first line and drops its terminator. */
  lemma DropBreaksFirstLine(s: string)
    requires s != []
    ensures DropBreaks(s) == s[..LineEnd(s)] + DropBreaks(s[NextStart(s)..])
  {
    var e, next := LineEnd(s), NextStart(s);
    assert s == (s[..e] + s[e..next]) + s[next..];
    assert forall i | 0 <= i < next - e :: s[e..next][i] == s[e + i];
    DropBreaksPieces(s[..e], s[e..next], s[next..]);
  }

  /** A line, then only terminators, then the rest: removing the breaks keeps
      the line and the rest's characters. */
  lemma DropBreaksPieces(line: string, breaks: string, rest: string)
    requires NoLineBreak(line)
    requires forall i | 0 <= i < |breaks| :: IsLineBreak(breaks[i])
    ensures DropBreaks((line + breaks) + rest) == line + DropBreaks(rest)
  {
    assert DropBreaks(line + breaks) == line by {
      DropBreaksConcat(line, breaks);
      DropBreaksNone(line);
      DropBreaksAll(breaks);
      assert line + [] == line;
    }
    DropBreaksConcat(line + breaks, rest);
  }

  /** `str.splitlines` gives one line per line ending, plus one for a last line
      that has no terminator. */
  lemma {:induction false} SplitLinesCount(s: string)
    ensures |SplitLines(s)| == BreakCount(s) + (if s != [] && !IsLineBreak(s[|s| - 1]) then 1 else 0)
    decreases |s|
  {
    if s != [] {
      var e, next := LineEnd(s), NextStart(s);
      var rest := s[next..];
      SplitLinesCount(rest);
      BreakCountSkip(s, e);
      if e < |s| {
        BreakCountOfTerminator(s);
        if rest != [] {
          assert s[|s| - 1] == rest[|rest| - 1];
        }
      } else {
        assert !IsLineBreak(s[..e][|s| - 1]);
      }
    }
  }

  /** The first terminator counts as one line ending. */
  lemma BreakCountOfTerminator(s: string)
    requires LineEnd(s) < |s|
    ensures BreakCount(s[LineEnd(s)..]) == 1 + BreakCount(s[NextStart(s)..])
  {
    var e, next := LineEnd(s), NextStart(s);
    var t := s[e..];
    assert t[0] == s[e];
    if next == e + 2 {
      assert t[1] == s[e + 1] && t[2..] == s[next..];
    } else {
      assert t[1..] == s[next..];
    }
  }

  lemma {:induction false} DropBreaksConcat(a: string, b: string)
    ensures DropBreaks(a + b) == DropBreaks(a) + DropBreaks(b)
  {
    if a == [] {
      assert a + b == b;
    } else {
      assert (a + b)[0] == a[0];
      assert (a + b)[1..] == a[1..] + b;
      DropBreaksConcat(a[1..], b);
    }
  }

  lemma {:induction false} DropBreaksNone(s: string)
    requires NoLineBreak(s)
    ensures DropBreaks(s) == s
  {
    if s != [] {
      NoLineBreakSlice(s, 1, |s|);
      assert s[1..|s|] == s[1..];
      DropBreaksNone(s[1..]);
    }
  }

  lemma {:induction false} DropBreaksAll(s: string)
    requires forall i | 0 <= i < |s| :: IsLineBreak(s[i])
    ensures DropBreaks(s) == []
  {
    if s != [] {
      assert forall i | 0 <= i < |s[1..]| :: s[1..][i] == s[i + 1];
      DropBreaksAll(s[1..]);
    }
  }

  /** Characters that are not line breaks add no line ending. */
  lemma {:induction false} BreakCountSkip(s: string, e: nat)
    requires e <= |s| && NoLineBreak(s[..e])
    ensures BreakCount(s) == BreakCount(s[e..])
    decreases e
  {
    if e > 0 {
      assert s[..e][0] == s[0];
      NoLineBreakSlice(s[..e], 1, e);
      assert s[..e][1..e] == s[1..][..e - 1];
      BreakCountSkip(s[1..], e - 1);
      assert s[1..][e - 1..] == s[e..];
    }
  }

  /** `max(position - chunk_size, 0)`: where the chunk read backward from `pos` starts;
      each step moves strictly back, by at most one chunk. */
  function ChunkStart(pos: nat): (start: nat)
    ensures pos > 0 ==> start < pos
    ensures pos - start <= ChunkSize
    ensures start == 0 || pos - start == ChunkSize
  {
    if pos - ChunkSize > 0 then pos - ChunkSize else 0
  }

  /** The position reached after reading `n` chunks backward from the end of a
      file of `size` characters. */
  function Boundary(size: nat, n: nat): (b: nat)
    ensures b <= size
  {
    if n == 0 then size else ChunkStart(Boundary(size, n - 1))
  }

  /** The lines gathered after reading the last `n` chunks: each chunk split on its
      own, earlier chunks in front. */
  function LinesOfLast(file: string, n: nat): seq<string>
  {
    if n == 0 then []
    else SplitLines(file[Boundary(|file|, n)..Boundary(|file|, n - 1)]) + LinesOfLast(file, n - 1)
  }

  /** The loop's stopping condition after `n` chunks: the start of the file is
      reached, or enough lines are gathered. */
  predicate Done(file: string, n: nat)
  {
    Boundary(|file|, n) == 0 || |LinesOfLast(file, n)| >= MaxLines
  }

  /** The number of chunks the loop reads: the least `n` at which it is done. */
  function ChunksRead(file: string): (n: nat)
    ensures Done(file, n)
    ensures forall m | 0 <= m < n :: !Done(file, m)
  {
    ChunksFrom(file, 0)
  }

  function ChunksFrom(file: string, m: nat): (n: nat)
    requires forall j | 0 <= j < m :: !Done(file, j)
    ensures m <= n && Done(file, n)
    ensures forall j | 0 <= j < n :: !Done(file, j)
    decreases Boundary(|file|, m)
  {
    if Done(file, m) then m
    else
      assert Boundary(|file|, m + 1) < Boundary(|file|, m);
      assert forall j | 0 <= j < m + 1 :: !Done(file, j);
      ChunksFrom(file, m + 1)
  }

  /** The lines the loop ends with. */
  function TailLines(file: string): seq<string>
  {
    LinesOfLast(file, ChunksRead(file))
  }

  lemma LeastDoneIsChunksRead(file: string, n: nat)
    requires Done(file, n)
    requires forall m | 0 <= m < n :: !Done(file, m)
    ensures n == ChunksRead(file)
  {
    var c := ChunksRead(file);
  }

  /** One more pass of the loop: a position not yet done is before the last
      chunk read, and the next chunk puts its lines in front. */
  lemma TailStep(file: string, n: nat)
    requires n <= ChunksRead(file) && !Done(file, n)
    ensures n < ChunksRead(file)
    ensures Boundary(|file|, n + 1) == ChunkStart(Boundary(|file|, n))
    ensures LinesOfLast(file, n + 1)
         == SplitLines(file[Boundary(|file|, n + 1)..Boundary(|file|, n)]) + LinesOfLast(file, n)
  {
  }

  /** The loop of `get_server_logs` / `get_logs`, run on the whole file: the
      position only moves back, and the loop stops after the first chunk that
      brings the count to 1000 lines or reaches the start. */
  method ReadTail(file: string) returns (lines: seq<string>)
    ensures lines == TailLines(file)
  {
    lines := [];
    var position: nat := |file|;
    ghost var n: nat := 0;
    while |lines| < MaxLines && position > 0
      invariant position == Boundary(|file|, n)
      invariant lines == LinesOfLast(file, n)
      invariant n <= ChunksRead(file)
      decreases position
    {
      var chunkPos: nat := if position - ChunkSize > 0 then position - ChunkSize else 0;
      var chunk := file[chunkPos..position];
      TailStep(file, n);
      assert chunkPos == Boundary(|file|, n + 1);
      lines := SplitLines(chunk) + lines;
      position := chunkPos;
      n := n + 1;
      if chunkPos == 0 {
        break;
      }
    }
    TailEnd(file, n);
  }

  /** The loop stops exactly after `ChunksRead(file)` chunks. */
  lemma TailEnd(file: string, n: nat)
    requires n <= ChunksRead(file) && Done(file, n)
    ensures n == ChunksRead(file)
  {
    LeastDoneIsChunksRead(file, n);
  }

  /** The lines `/server_logs` shows: at most the last 1000 gathered, newest first. */
  function NewestFirstLines(file: string): (r: seq<string>)
    ensures var t := TailLines(file);
      && |r| == (if |t| <= MaxLines then |t| else MaxLines)
      && forall i | 0 <= i < |r| :: r[i] == t[|t| - 1 - i]
  {
    Reverse(TakeLast(TailLines(file), MaxLines))
  }

  /** The lines `/api/logs` shows: at most the last 1000 gathered, oldest first. */
  function OldestFirstLines(file: string): (r: seq<string>)
    ensures var t := TailLines(file);
      && |r| == (if |t| <= MaxLines then |t| else MaxLines)
      && forall i | 0 <= i < |r| :: r[i] == t[|t| - |r| + i]
  {
    TakeLast(TailLines(file), MaxLines)
  }

  /** The two log endpoints show the same lines in opposite orders. */
  lemma LogEndpointsDisagreeOnlyInOrder(file: string)
    ensures OldestFirstLines(file) == Reverse(NewestFirstLines(file))
  {
    ReverseReverse(TakeLast(TailLines(file), MaxLines));
  }

  /** A file of at most one chunk is read in one step, so the tail is exactly its
      own lines, and `/server_logs` shows the last 1000 of them newest first. */
  lemma SingleChunkTail(file: string)
    requires |file| <= ChunkSize
    ensures TailLines(file) == SplitLines(file)
    ensures NewestFirstLines(file) == Reverse(TakeLast(SplitLines(file), MaxLines))
  {
    if file == [] {
      LeastDoneIsChunksRead(file, 0);
    } else {
      assert Boundary(|file|, 1) == 0;
      LeastDoneIsChunksRead(file, 1);
      assert file[0..|file|] == file;
    }
  }

  lemma TwoChunkBoundaries(size: nat)
    requires ChunkSize < size <= 2 * ChunkSize
    ensures Boundary(size, 0) == size
    ensures Boundary(size, 1) == size - ChunkSize
    ensures Boundary(size, 2) == 0
  {
    assert Boundary(size, 1) == ChunkStart(size);
  }

  lemma TwoChunkLines(file: string)
    requires ChunkSize < |file| <= 2 * ChunkSize
    requires NoLineBreak(file)
    ensures LinesOfLast(file, 1) == [file[|file| - ChunkSize..]]
    ensures LinesOfLast(file, 2) == [file[..|file| - ChunkSize], file[|file| - ChunkSize..]]
  {
    LastChunkLine(file);
    FirstChunkLine(file);
  }

  /** The first of two chunks of a file without line breaks adds one line. */
  lemma FirstChunkLine(file: string)
    requires ChunkSize < |file| <= 2 * ChunkSize
    requires NoLineBreak(file)
    ensures LinesOfLast(file, 2) == [file[..|file| - ChunkSize]] + LinesOfLast(file, 1)
  {
    TwoChunkBoundaries(|file|);
    var p := |file| - ChunkSize;
    SingleLineChunk(file, 0, p);
    assert file[0..p] == file[..p];
  }

  /** The last chunk of a file without line breaks is one line. */
  lemma LastChunkLine(file: string)
    requires ChunkSize < |file| <= 2 * ChunkSize
    requires NoLineBreak(file)
    ensures LinesOfLast(file, 1) == [file[|file| - ChunkSize..]]
  {
    TwoChunkBoundaries(|file|);
    var p := |file| - ChunkSize;
    SingleLineChunk(file, p, |file|);
    assert file[p..|file|] == file[p..];
    assert LinesOfLast(file, 1) == SplitLines(file[p..|file|]) + [];
  }

  /** A non-empty slice of a file without line breaks is a single line. */
  lemma SingleLineChunk(file: string, lo: nat, hi: nat)
    requires lo < hi <= |file|
    requires NoLineBreak(file)
    ensures SplitLines(file[lo..hi]) == [file[lo..hi]]
  {
    NoLineBreakSlice(file, lo, hi);
    SplitSingleLine(file[lo..hi]);
  }

  /** A line longer than what is left of the last chunk is split in two: for a
      file of one unbroken line between one and two chunks long, the tail has two
      entries while the file has one line. */
  lemma StraddlingLineIsSplit(file: string)
    requires ChunkSize < |file| <= 2 * ChunkSize
    requires NoLineBreak(file)
    ensures SplitLines(file) == [file]
    ensures TailLines(file) == [file[..|file| - ChunkSize], file[|file| - ChunkSize..]]
    ensures TailLines(file) != SplitLines(file)
  {
    SplitSingleLine(file);
    TwoChunksRead(file);
    TwoChunkLines(file);
  }

  lemma TwoChunksRead(file: string)
    requires ChunkSize < |file| <= 2 * ChunkSize
    requires NoLineBreak(file)
    ensures ChunksRead(file) == 2
  {
    TwoChunkBoundaries(|file|);
    TwoChunkLines(file);
    assert !Done(file, 0);
    assert !Done(file, 1);
    LeastDoneIsChunksRead(file, 2);
  }
}

=== FILE: object_ids.dfy ===
/** Document identifiers. A stored `_id` is a 12-byte ObjectId, i.e. a number
    below 16^24; handlers and clients see it as its 24-digit lower-case hex text
    (`str(ObjectId)`), and turn text back into an id with `ObjectId(text)`, which
    accepts exactly 24 hex digits of either case and raises on anything else. */
module ObjectIds {
  import opened Prelude
  import opened JsonValues

  /** Number of hex digits in the text form of an id. */
  const HexWidth: nat := 24

  /** 16^24 = 2^96: one more than the largest 12-byte id. */
  const OidBound: nat := 0x1_0000_0000_0000_0000_0000_0000

  type Oid = n: nat | n < OidBound

  function Pow16(n: nat): (p: nat)
    ensures p >= 1
  {
    if n == 0 then 1 else 16 * Pow16(n - 1)
  }

  lemma Pow16HexWidth()
    ensures Pow16(HexWidth) == OidBound
  {
    assert Pow16(8) == 0x1_0000_0000;
    Pow16Add(8, 8);
    Pow16Add(16, 8);
  }

  lemma {:induction false} Pow16Add(a: nat, b: nat)
    ensures Pow16(a + b) == Pow16(a) * Pow16(b)
    decreases a
  {
    if a > 0 {
      Pow16Add(a - 1, b);
    }
  }

  predicate IsHexDigit(c: char)
  {
    '0' <= c <= '9' || 'a' <= c <= 'f' || 'A' <= c <= 'F'
  }

  predicate IsLowerHexDigit(c: char)
  {
    '0' <= c <= '9' || 'a' <= c <= 'f'
  }

  predicate IsHex(s: string)
  {
    forall i | 0 <= i < |s| :: IsHexDigit(s[i])
  }

  /** Text that `ObjectId(text)` accepts. */
  predicate WellFormed(s: string)
  {
    |s| == HexWidth && IsHex(s)
  }

  function DigitValue(c: char): (d: nat)
    requires IsHexDigit(c)
    ensures d < 16
  {
    if '0' <= c <= '9' then c as nat - '0' as nat
    else if 'a' <= c <= 'f' then c as nat - 'a' as nat + 10
    else c as nat - 'A' as nat + 10
  }

  function DigitChar(d: nat): (c: char)
    requires d < 16
    ensures IsLowerHexDigit(c) && IsHexDigit(c)
    ensures DigitValue(c) == d
  {
    if d < 10 then ('0' as nat + d) as char else ('a' as nat + d - 10) as char
  }

  /** The lower-case form of a hex text: what `str(ObjectId(s))` prints for `s`. */
  function Folded(s: string): (r: string)
    requires IsHex(s)
    ensures |r| == |s|
    ensures forall i | 0 <= i < |s| :: r[i] == DigitChar(DigitValue(s[i]))
  {
    if s == [] then [] else Folded(s[..|s| - 1]) + [DigitChar(DigitValue(s[|s| - 1]))]
  }

  /** The big-endian value of a hex text. */
  function HexValue(s: string): (n: nat)
    requires IsHex(s)
    ensures n < Pow16(|s|)
    decreases |s|
  {
    if s == [] then 0
    else
      var high := HexValue(s[..|s| - 1]);
      var low := DigitValue(s[|s| - 1]);
      assert high * 16 <= (Pow16(|s| - 1) - 1) * 16;
      high * 16 + low
  }

  /** The `width` low-order hex digits of `n`, most significant first, lower case. */
  function HexText(n: nat, width: nat): (s: string)
    ensures |s| == width
    ensures IsHex(s)
    ensures forall i | 0 <= i < |s| :: IsLowerHexDigit(s[i])
  {
    if width == 0 then [] else HexText(n / 16, width - 1) + [DigitChar(n % 16)]
  }

  /** `ObjectId(j)` for a `j` that is not null: `None` stands for the InvalidId or
      TypeError it raises. A null `j` also gives `None` here, although
      `ObjectId(None)` generates a new id instead (see `ObjectIdOf`): the lookups
      by id use `ParseId`, and a newly generated id names no stored document, so
      they end exactly as for a malformed id. */
  function ParseId(j: Json): (r: Option<Oid>)
    ensures r.Some? <==> j.JStr? && WellFormed(j.s)
    ensures r.Some? ==> r.value == HexValue(j.s)
  {
    match j
    case JStr(s) =>
      if WellFormed(s) then
        Pow16HexWidth();
        Some(HexValue(s))
      else None
    case _ => None
  }

  /** `ObjectId(j)` for any request value: `ObjectId(None)` does not raise but
      generates a new id, given here as `generated`; every other value is parsed. */
  function ObjectIdOf(j: Json, generated: Oid): (r: Option<Oid>)
    ensures r.Some? <==> j.JNull? || (j.JStr? && WellFormed(j.s))
    ensures j.JNull? ==> r == Some(generated)
    ensures j.JStr? && WellFormed(j.s) ==> r == Some(HexValue(j.s))
  {
    if j.JNull? then Some(generated) else ParseId(j)
  }

  /** `str(id)`: 24 lower-case hex digits. */
  function Render(id: Oid): (s: string)
    ensures WellFormed(s)
    ensures forall i | 0 <= i < |s| :: IsLowerHexDigit(s[i])
  {
    HexText(id, HexWidth)
  }

  /** Euclidean division is unique: a decomposition `n == d * a + x` with
      `0 <= x < d` is the quotient and remainder. */
  lemma DivModUnique(n: int, d: int, a: int, x: int)
    requires d > 0 && n == d * a + x && 0 <= x < d
    ensures n / d == a && n % d == x
  {
    var q, r := n / d, n % d;
    var k := q - a;
    assert d * q == d * a + d * k;
    assert d * k == x - r;
    if k > 0 {
      MulAtLeast(d, k);
    } else if k < 0 {
      MulAtLeast(d, -k);
    }
  }

  lemma {:induction false} MulAtLeast(d: int, k: int)
    requires d > 0 && k >= 1
    ensures d * k >= d
    decreases k
  {
    if k > 1 {
      MulAtLeast(d, k - 1);
      assert d * k == d * (k - 1) + d;
    }
  }

  lemma ModOfShifted(n: nat, p: nat)
    requires p >= 1
    ensures ((n / 16) % p) * 16 + n % 16 == n % (16 * p)
  {
    var q, r := n / 16, n % 16;
    var a, b := q / p, q % p;
    assert n == 16 * q + r;
    assert q == p * a + b;
    assert n == (16 * p) * a + (16 * b + r);
    assert 16 * b + r < 16 * p;
    DivModUnique(n, 16 * p, a, 16 * b + r);
  }

  lemma {:induction false} HexTextValue(n: nat, width: nat)
    ensures HexValue(HexText(n, width)) == n % Pow16(width)
  {
    if width == 0 {
      assert HexText(n, 0) == [];
    } else {
      var s := HexText(n, width);
      assert s[..|s| - 1] == HexText(n / 16, width - 1);
      assert s[|s| - 1] == DigitChar(n % 16);
      HexTextValue(n / 16, width - 1);
      ModOfShifted(n, Pow16(width - 1));
    }
  }

  /** An id survives the trip to text and back: `ObjectId(str(id)) == id`. */
  lemma ParseRender(id: Oid)
    ensures ParseId(JStr(Render(id))) == Some(id)
  {
    HexTextValue(id, HexWidth);
    Pow16HexWidth();
    DivModUnique(id, Pow16(HexWidth), 0, id);
  }

  lemma {:induction false} HexTextOfValue(s: string)
    requires IsHex(s)
    ensures HexText(HexValue(s), |s|) == Folded(s)
    decreases |s|
  {
    if s != [] {
      var prefix := s[..|s| - 1];
      var v := HexValue(s);
      DivModUnique(v, 16, HexValue(prefix), DigitValue(s[|s| - 1]));
      HexTextOfValue(prefix);
    }
  }

  /** Text that parses prints back in lower case: `str(ObjectId(s))` is `s`
      with its letters folded to lower case. */
  lemma RenderParse(s: string)
    requires WellFormed(s)
    ensures ParseId(JStr(s)).Some?
    ensures Render(ParseId(JStr(s)).value) == Folded(s)
  {
    HexTextOfValue(s);
  }

  /** Two texts name the same id exactly when they agree up to letter case. */
  lemma SameIdIffSameFolding(s: string, t: string)
    requires WellFormed(s) && WellFormed(t)
    ensures ParseId(JStr(s)) == ParseId(JStr(t)) <==> Folded(s) == Folded(t)
  {
    RenderParse(s);
    RenderParse(t);
    var a, b := ParseId(JStr(s)).value, ParseId(JStr(t)).value;
    if Folded(s) == Folded(t) {
      ParseRender(a);
      ParseRender(b);
    }
  }
}

=== FILE: ordering.dfy ===
/** The order in which the database hands back documents for
    `.sort('timestamp', -1)`, and the effect of `.limit(n)`.

    The database only promises newest-first; among equal timestamps its order is
    unspecified. The model fixes one admissible order: equal timestamps are listed
    by ascending id. Timestamps are given as a map from id to time, so the same
    ordering serves captures and responses. */
module Ordering {
  import opened ObjectIds

  /** `a` is listed before `b`: it is newer, or equally new with a smaller id. */
  predicate Precedes(time: map<Oid, int>, a: Oid, b: Oid)
  {
    a in time && b in time && (time[a] > time[b] || (time[a] == time[b] && a < b))
  }

  /** `m` is the first of `s` in listing order. */
  predicate IsFirst(time: map<Oid, int>, s: set<Oid>, m: Oid)
  {
    m in s && forall x | x in s && x != m :: Precedes(time, m, x)
  }

  /** A sequence of ids in listing order (which also makes its ids distinct). */
  predicate NewestFirst(time: map<Oid, int>, r: seq<Oid>)
  {
    forall i, j | 0 <= i < j < |r| :: Precedes(time, r[i], r[j])
  }

  lemma {:induction false} FirstExists(time: map<Oid, int>, s: set<Oid>)
    requires s != {} && s <= time.Keys
    ensures exists m :: IsFirst(time, s, m)
    decreases s
  {
    var y :| y in s;
    if s == {y} {
      assert IsFirst(time, s, y);
    } else {
      FirstExists(time, s - {y});
      var m :| IsFirst(time, s - {y}, m);
      if Precedes(time, y, m) {
        forall x | x in s && x != y
          ensures Precedes(time, y, x)
        {
          if x != m {
            assert Precedes(time, m, x);
          }
        }
        assert IsFirst(time, s, y);
      } else {
        assert Precedes(time, m, y);
        assert IsFirst(time, s, m);
      }
    }
  }

  /** The first id of `s` in listing order; it is unique because the order is total. */
  function First(time: map<Oid, int>, s: set<Oid>): (m: Oid)
    requires s != {} && s <= time.Keys
    ensures IsFirst(time, s, m)
  {
    FirstExists(time, s);
    var m :| IsFirst(time, s, m);
    m
  }

  /** All of `s`, in listing order. */
  function Ordered(time: map<Oid, int>, s: set<Oid>): (r: seq<Oid>)
    requires s <= time.Keys
    ensures |r| == |s|
    ensures forall i | 0 <= i < |r| :: r[i] in s
    ensures forall k | k in s :: k in r
    ensures NewestFirst(time, r)
    decreases s
  {
    if s == {} then []
    else
      var m := First(time, s);
      var rest := Ordered(time, s - {m});
      assert forall j | 0 <= j < |rest| :: Precedes(time, m, rest[j]);
      [m] + rest
  }

  /** Cursor `.limit(n)`: at most `n` leading elements, where `0` means no limit. */
  function Limit<T>(r: seq<T>, n: nat): (l: seq<T>)
    ensures |l| == if n == 0 || |r| <= n then |r| else n
    ensures l == r[..|l|]
  {
    if n == 0 || |r| <= n then r else r[..n]
  }

  /** The ids a query matching exactly `s` returns under `.sort('timestamp', -1).limit(n)`:
      only matching ids, newest first, as many as the limit allows, and every
      matching id left out is older than (listed after) every id returned. */
  function Listing(time: map<Oid, int>, s: set<Oid>, limit: nat): (r: seq<Oid>)
    requires s <= time.Keys
    ensures forall i | 0 <= i < |r| :: r[i] in s
    ensures |r| == if limit == 0 || |s| <= limit then |s| else limit
    ensures NewestFirst(time, r)
    ensures forall k | k in s && k !in r :: forall i | 0 <= i < |r| :: Precedes(time, r[i], k)
    ensures limit == 0 || |s| <= limit ==> forall k | k in s :: k in r
  {
    var all := Ordered(time, s);
    var r := Limit(all, limit);
    forall k | k in s && k !in r
      ensures forall i | 0 <= i < |r| :: Precedes(time, r[i], k)
    {
      var j :| 0 <= j < |all| && all[j] == k;
      assert j >= |r|;
    }
    r
  }

  /** Listing order never puts an id twice. */
  lemma NewestFirstDistinct(time: map<Oid, int>, r: seq<Oid>, i: int, j: int)
    requires NewestFirst(time, r)
    requires 0 <= i < |r| && 0 <= j < |r| && i != j
    ensures r[i] != r[j]
  {
    if i < j {
      assert Precedes(time, r[i], r[j]);
    } else {
      assert Precedes(time, r[j], r[i]);
    }
  }
}

=== FILE: prelude.dfy ===
/** Small shared vocabulary: optional values, Python-level evaluation outcomes
    (a value or a raised exception) and a few sequence helpers. */
module Prelude {

  /** The conventional Some/None datatype, standing for Python's `Optional`. */
  datatype Option<+T> = None | Some(value: T)

  /** The exceptions the modelled code can raise or swallow. */
  datatype Fault =
    | TypeFault          // TypeError: `in` or `[...]` applied to a value of the wrong kind
    | InvalidIdFault     // bson InvalidId / TypeError raised by ObjectId(...)
    | DuplicateKeyFault  // insert_one with an `_id` that is already taken
    | ServerFault        // the database server did not answer
    | UpstreamFault      // the inference call raised
    | DeviceFault        // the camera could not be opened or read
    | ReadFault          // opening or reading a file failed

  /** The outcome of evaluating a Python expression: a value, or an exception. */
  datatype Py<+T> = Value(value: T) | Raise(fault: Fault)

  /** Python's `s[-n:]` for a positive `n`: the last `n` elements, or all of them. */
  function TakeLast<T>(s: seq<T>, n: nat): (r: seq<T>)
    ensures |r| == if |s| <= n then |s| else n
    ensures forall i | 0 <= i < |r| :: r[i] == s[|s| - |r| + i]
  {
    if |s| <= n then s else s[|s| - n..]
  }

  /** Python's `reversed(s)`. */
  function Reverse<T>(s: seq<T>): (r: seq<T>)
    ensures |r| == |s|
    ensures forall i | 0 <= i < |s| :: r[i] == s[|s| - 1 - i]
  {
    if s == [] then [] else Reverse(s[1..]) + [s[0]]
  }

  lemma {:induction false} ReverseReverse<T>(s: seq<T>)
    ensures Reverse(Reverse(s)) == s
  {
    var r := Reverse(Reverse(s));
    assert |r| == |s|;
    forall i | 0 <= i < |s| ensures r[i] == s[i] {
      assert r[i] == Reverse(s)[|s| - 1 - i];
    }
  }

  /** Python's `sep.join(parts)`. */
  function JoinWith(sep: string, parts: seq<string>): string
  {
    if parts == [] then []
    else if |parts| == 1 then parts[0]
    else parts[0] + sep + JoinWith(sep, parts[1..])
  }

  /** Index of the last occurrence of `c` in `s`, or -1. */
  function LastIndexOf(s: string, c: char): (i: int)
    ensures -1 <= i < |s|
    ensures i >= 0 ==> s[i] == c
    ensures forall j | i < j < |s| :: s[j] != c
  {
    if s == [] then -1
    else if s[|s| - 1] == c then |s| - 1
    else LastIndexOf(s[..|s| - 1], c)
  }
}

=== FILE: route_listing.dfy ===
/** `GET /api/routes` of `routes/dashboard.py`: one entry per URL rule except the
    application's own `static` rule, each with a short name, a category, the
    HTTP method to show and a cleaned documentation line.

    A rule's documentation is cleaned in three steps: runs of whitespace become
    single spaces (`' '.join(doc.split())`), every character other than a
    letter, digit, space, `.` or `,` is dropped, and surrounding whitespace is
    stripped. Dropping a character between two spaces leaves a double space
    (`CleanDocKeepsDoubleSpace`), so the result is not whitespace-normalised. */
module RouteListing {
  import opened Prelude
  import opened JsonValues
  import opened Http

  /** A URL rule as the dashboard sees it: its endpoint name, URL pattern, the
      methods it answers in the order the rule's method set yields them, and the
      view function's docstring as `inspect.getdoc` returns it. */
  datatype Rule = Rule(endpoint: string, path: string, methods: seq<string>, doc: Option<string>)

  /** One entry of the listing; `httpMethod` is sent as `type`. */
  datatype RouteInfo = RouteInfo(name: string, path: string, doc: string, category: string, httpMethod: string)

  const DefaultDoc: string := "No documentation available"
  const StaticDoc: string := "Serve static files"

  // ---------------------------------------------------------------- characters

  /** `str.isspace`. */
  predicate IsSpace(c: char)
  {
    var n := c as int;
    (0x09 <= n <= 0x0D) || (0x1C <= n <= 0x20) || n == 0x85 || n == 0xA0 || n == 0x1680
    || (0x2000 <= n <= 0x200A) || n == 0x2028 || n == 0x2029 || n == 0x202F || n == 0x205F
    || n == 0x3000
  }

  /** `str.isalnum`, restricted to ASCII letters and digits. */
  predicate IsAlnum(c: char)
  {
    'a' <= c <= 'z' || 'A' <= c <= 'Z' || '0' <= c <= '9'
  }

  /** The characters the cleaning keeps: `c.isalnum() or c in ' .,'`. */
  predicate IsKept(c: char)
  {
    IsAlnum(c) || c == ' ' || c == '.' || c == ','
  }

  /** The kept characters other than the space. */
  predicate IsMark(c: char)
  {
    IsAlnum(c) || c == '.' || c == ','
  }

  predicate IsVisible(c: char)
  {
    !IsSpace(c)
  }

  /** The characters of `s` that satisfy `f`, in order. */
  function Filter(s: string, f: char -> bool): (r: string)
    ensures |r| <= |s|
    ensures forall i | 0 <= i < |r| :: f(r[i])
  {
    if s == [] then [] else (if f(s[0]) then [s[0]] else []) + Filter(s[1..], f)
  }

  lemma {:induction false} FilterConcat(a: string, b: string, f: char -> bool)
    ensures Filter(a + b, f) == Filter(a, f) + Filter(b, f)
  {
    if a == [] {
      assert a + b == b;
    } else {
      assert (a + b)[1..] == a[1..] + b;
      FilterConcat(a[1..], b, f);
    }
  }

  lemma {:induction false} FilterAll(s: string, f: char -> bool)
    requires forall i | 0 <= i < |s| :: f(s[i])
    ensures Filter(s, f) == s
  {
    if s != [] {
      FilterAll(s[1..], f);
    }
  }

  lemma {:induction false} FilterNone(s: string, f: char -> bool)
    requires forall i | 0 <= i < |s| :: !f(s[i])
    ensures Filter(s, f) == []
  {
    if s != [] {
      FilterNone(s[1..], f);
    }
  }

  /** Filtering twice is filtering once by the conjunction. */
  lemma {:induction false} FilterFilter(s: string, f: char -> bool, g: char -> bool, h: char -> bool)
    requires forall c :: h(c) == (f(c) && g(c))
    ensures Filter(Filter(s, f), g) == Filter(s, h)
  {
    if s != [] {
      FilterFilter(s[1..], f, g, h);
      var head := if f(s[0]) then [s[0]] else [];
      FilterConcat(head, Filter(s[1..], f), g);
    }
  }

  // ---------------------------------------------------------------- words

  /** Index of the first whitespace character of `s`, or `|s|`. */
  function WordEnd(s: string): (e: nat)
    ensures e <= |s|
    ensures forall i | 0 <= i < e :: !IsSpace(s[i])
    ensures e < |s| ==> IsSpace(s[e])
  {
    if s == [] || IsSpace(s[0]) then 0 else 1 + WordEnd(s[1..])
  }

  predicate IsWord(w: string)
  {
    w != [] && forall i | 0 <= i < |w| :: !IsSpace(w[i])
  }

  /** `s.split()`: the maximal runs of non-whitespace characters. */
  function Words(s: string): (ws: seq<string>)
    ensures forall i | 0 <= i < |ws| :: IsWord(ws[i])
    decreases |s|
  {
    if s == [] then []
    else if IsSpace(s[0]) then Words(s[1..])
    else
      var e := WordEnd(s);
      [s[..e]] + Words(s[e..])
  }

  /** Splitting and re-joining with single spaces keeps every non-whitespace
      character, in order. */
  lemma {:induction false} WordsKeepVisible(s: string)
    ensures Filter(JoinWith(" ", Words(s)), IsVisible) == Filter(s, IsVisible)
    decreases |s|
  {
    if s == [] {
    } else if IsSpace(s[0]) {
      WordsKeepVisible(s[1..]);
    } else {
      var e := WordEnd(s);
      var w, rest := s[..e], s[e..];
      WordsKeepVisible(rest);
      assert s == w + rest;
      FilterConcat(w, rest, IsVisible);
      FilterAll(w, IsVisible);
      assert Words(s) == [w] + Words(rest);
      JoinFrontVisible(w, Words(rest));
    }
  }

  /** Joining one more word in front adds its visible characters in front. */
  lemma JoinFrontVisible(w: string, ws: seq<string>)
    ensures Filter(JoinWith(" ", [w] + ws), IsVisible) == Filter(w, IsVisible) + Filter(JoinWith(" ", ws), IsVisible)
  {
    if ws == [] {
      assert JoinWith(" ", [w] + ws) == w;
      assert JoinWith(" ", ws) == [];
    } else {
      assert ([w] + ws)[1..] == ws;
      assert JoinWith(" ", [w] + ws) == w + " " + JoinWith(" ", ws);
      FilterConcat(w + " ", JoinWith(" ", ws), IsVisible);
      FilterConcat(w, " ", IsVisible);
      FilterNone(" ", IsVisible);
    }
  }

  /** Joining words with single spaces and splitting again gives the words back. */
  lemma {:induction false} WordsOfJoin(ws: seq<string>)
    requires forall i | 0 <= i < |ws| :: IsWord(ws[i])
    ensures Words(JoinWith(" ", ws)) == ws
  {
    if ws == [] {
    } else {
      var w := ws[0];
      var e := WordEnd(w);
      assert e == |w|;
      if |ws| == 1 {
        WordsOfWord(w, []);
        assert w + [] == w;
      } else {
        WordsOfJoin(ws[1..]);
        var tail := " " + JoinWith(" ", ws[1..]);
        assert Words(tail) == Words(JoinWith(" ", ws[1..])) by {
          assert tail[1..] == JoinWith(" ", ws[1..]);
        }
        assert JoinWith(" ", ws) == w + tail;
        WordsOfWord(w, tail);
        assert ws == [w] + ws[1..];
      }
    }
  }

  /** A word followed by nothing or by whitespace is split off as a whole. */
  lemma WordsOfWord(w: string, tail: string)
    requires IsWord(w)
    requires tail == [] || IsSpace(tail[0])
    ensures Words(w + tail) == [w] + Words(tail)
  {
    var s := w + tail;
    WordEndOfWord(w, tail);
    assert s[..|w|] == w && s[|w|..] == tail;
  }

  lemma {:induction false} WordEndOfWord(w: string, tail: string)
    requires forall i | 0 <= i < |w| :: !IsSpace(w[i])
    requires tail == [] || IsSpace(tail[0])
    ensures WordEnd(w + tail) == |w|
  {
    if w == [] {
      assert w + tail == tail;
    } else {
      assert (w + tail)[1..] == w[1..] + tail;
      WordEndOfWord(w[1..], tail);
    }
  }

  // ---------------------------------------------------------------- strip

  /** How many whitespace characters `s` starts with. */
  function LeadingSpaces(s: string): (n: nat)
    ensures n <= |s|
    ensures forall i | 0 <= i < n :: IsSpace(s[i])
    ensures n < |s| ==> !IsSpace(s[n])
  {
    if s == [] || !IsSpace(s[0]) then 0 else 1 + LeadingSpaces(s[1..])
  }

  /** How many whitespace characters `s` ends with. */
  function TrailingSpaces(s: string): (n: nat)
    ensures n <= |s|
    ensures forall i | |s| - n <= i < |s| :: IsSpace(s[i])
    ensures n < |s| ==> !IsSpace(s[|s| - n - 1])
  {
    if s == [] || !IsSpace(s[|s| - 1]) then 0 else 1 + TrailingSpaces(s[..|s| - 1])
  }

  /** `s.strip()`: `s` without its leading and trailing whitespace. */
  function Strip(s: string): (r: string)
    ensures r == [] || (!IsSpace(r[0]) && !IsSpace(r[|r| - 1]))
    ensures r == [] <==> LeadingSpaces(s) == |s|
    ensures r != [] ==>
      && LeadingSpaces(s) + TrailingSpaces(s) < |s|
      && r == s[LeadingSpaces(s)..|s| - TrailingSpaces(s)]
  {
    var a := LeadingSpaces(s);
    if a == |s| then [] else s[a..|s| - TrailingSpaces(s)]
  }

  /** Stripping removes only whitespace. */
  lemma StripKeepsVisible(s: string)
    ensures Filter(Strip(s), IsVisible) == Filter(s, IsVisible)
  {
    if Strip(s) == [] {
      FilterNone(s, IsVisible);
      FilterNone(Strip(s), IsVisible);
    } else {
      DropSpaces(s, LeadingSpaces(s), |s| - TrailingSpaces(s));
    }
  }

  /** Cutting off whitespace at both ends keeps the visible characters. */
  lemma DropSpaces(s: string, a: nat, e: nat)
    requires a <= e <= |s|
    requires forall i | 0 <= i < a :: IsSpace(s[i])
    requires forall i | e <= i < |s| :: IsSpace(s[i])
    ensures Filter(s[a..e], IsVisible) == Filter(s, IsVisible)
  {
    var front := s[..e];
    DropTrailing(s, e);
    DropLeading(front, a);
    assert front[a..] == s[a..e];
  }

  lemma DropLeading(s: string, a: nat)
    requires a <= |s|
    requires forall i | 0 <= i < a :: IsSpace(s[i])
    ensures Filter(s[a..], IsVisible) == Filter(s, IsVisible)
  {
    var lead := s[..a];
    assert s == lead + s[a..];
    forall i | 0 <= i < |lead| ensures !IsVisible(lead[i]) {
      assert lead[i] == s[i];
    }
    FilterConcat(lead, s[a..], IsVisible);
    FilterNone(lead, IsVisible);
  }

  lemma DropTrailing(s: string, e: nat)
    requires e <= |s|
    requires forall i | e <= i < |s| :: IsSpace(s[i])
    ensures Filter(s[..e], IsVisible) == Filter(s, IsVisible)
  {
    var trail := s[e..];
    assert s == s[..e] + trail;
    forall i | 0 <= i < |trail| ensures !IsVisible(trail[i]) {
      assert trail[i] == s[e + i];
    }
    FilterConcat(s[..e], trail, IsVisible);
    FilterNone(trail, IsVisible);
  }

  /** Stripping keeps only characters of `s`. */
  lemma StripKeeps(s: string, f: char -> bool)
    requires forall i | 0 <= i < |s| :: f(s[i])
    ensures forall i | 0 <= i < |Strip(s)| :: f(Strip(s)[i])
  {
    var r := Strip(s);
    if r != [] {
      var a := LeadingSpaces(s);
      forall i | 0 <= i < |r| ensures f(r[i]) {
        assert r[i] == s[a + i];
      }
    }
  }

  lemma StripClean(s: string)
    requires s == [] || (!IsSpace(s[0]) && !IsSpace(s[|s| - 1]))
    ensures Strip(s) == s
  {
    if s != [] {
      assert s[0..|s|] == s;
    }
  }

  // ---------------------------------------------------------------- docs

  /** The text a docstring is cleaned from: `inspect.getdoc(view) or DefaultDoc`. */
  function DocText(doc: Option<string>): string
  {
    if doc.None? || doc.value == [] then DefaultDoc else doc.value
  }

  /** `''.join(c for c in ' '.join(text.split()) if c.isalnum() or c in ' .,').strip()`. */
  function CleanText(text: string): (r: string)
    ensures forall i | 0 <= i < |r| :: IsKept(r[i])
    ensures r == [] || (r[0] != ' ' && r[|r| - 1] != ' ')
  {
    var kept := Filter(JoinWith(" ", Words(text)), IsKept);
    StripKeeps(kept, IsKept);
    Strip(kept)
  }

  /** The cleaned documentation of a view. */
  function CleanDoc(doc: Option<string>): (r: string)
    ensures forall i | 0 <= i < |r| :: IsKept(r[i])
    ensures r == [] || (r[0] != ' ' && r[|r| - 1] != ' ')
  {
    CleanText(DocText(doc))
  }

  /** Apart from spaces, the cleaned doc holds exactly the letters, digits, dots and
      commas of the docstring, in their order. */
  lemma CleanDocMarks(doc: Option<string>)
    ensures Filter(CleanDoc(doc), IsVisible) == Filter(DocText(doc), IsMark)
  {
    CleanTextMarks(DocText(doc));
  }

  lemma CleanTextMarks(text: string)
    ensures Filter(CleanText(text), IsVisible) == Filter(text, IsMark)
  {
    var joined := JoinWith(" ", Words(text));
    WordsKeepVisible(text);
    StripKeepsVisible(Filter(joined, IsKept));
    FilterFilter(joined, IsKept, IsVisible, IsMark);
    FilterFilter(joined, IsVisible, IsMark, IsMark);
    FilterFilter(text, IsVisible, IsMark, IsMark);
  }

  /** A docstring that is already words of kept marks joined by single spaces is
      left as it is. */
  lemma CleanDocKeepsCleanText(ws: seq<string>)
    requires ws != []
    requires forall i | 0 <= i < |ws| :: IsWord(ws[i]) && forall j | 0 <= j < |ws[i]| :: IsMark(ws[i][j])
    ensures CleanDoc(Some(JoinWith(" ", ws))) == JoinWith(" ", ws)
  {
    CleanTextKeepsCleanText(ws);
  }

  lemma CleanTextKeepsCleanText(ws: seq<string>)
    requires ws != []
    requires forall i | 0 <= i < |ws| :: IsWord(ws[i]) && forall j | 0 <= j < |ws[i]| :: IsMark(ws[i][j])
    ensures JoinWith(" ", ws) != []
    ensures CleanText(JoinWith(" ", ws)) == JoinWith(" ", ws)
  {
    var text := JoinWith(" ", ws);
    JoinNonEmpty(ws);
    WordsOfJoin(ws);
    JoinKept(ws);
    FilterAll(text, IsKept);
    assert IsWord(ws[0]) && IsWord(ws[|ws| - 1]);
    JoinEnds(ws);
    StripClean(text);
  }

  lemma {:induction false} JoinNonEmpty(ws: seq<string>)
    requires ws != [] && ws[0] != []
    ensures JoinWith(" ", ws) != []
  {
  }

  lemma {:induction false} JoinKept(ws: seq<string>)
    requires forall i | 0 <= i < |ws| :: forall j | 0 <= j < |ws[i]| :: IsMark(ws[i][j])
    ensures forall k | 0 <= k < |JoinWith(" ", ws)| :: IsKept(JoinWith(" ", ws)[k])
  {
    if |ws| > 1 {
      JoinKept(ws[1..]);
      var a, b := ws[0] + " ", JoinWith(" ", ws[1..]);
      forall k | 0 <= k < |a + b| ensures IsKept((a + b)[k]) {
        if k >= |a| {
          assert (a + b)[k] == b[k - |a|];
        }
      }
    }
  }

  lemma {:induction false} JoinEnds(ws: seq<string>)
    requires ws != [] && ws[0] != [] && ws[|ws| - 1] != []
    requires forall i | 0 <= i < |ws| :: IsWord(ws[i])
    ensures var s := JoinWith(" ", ws); s != [] && s[0] == ws[0][0] && s[|s| - 1] == ws[|ws| - 1][|ws[|ws| - 1]| - 1]
  {
    if |ws| > 1 {
      JoinEnds(ws[1..]);
    }
  }

  /** The default text comes through cleaning unchanged. */
  lemma MissingDocGivesDefault(doc: Option<string>)
    requires doc.None? || doc.value == []
    ensures CleanDoc(doc) == DefaultDoc
  {
    DefaultDocIsClean();
  }

  lemma DefaultDocIsClean()
    ensures CleanText(DefaultDoc) == DefaultDoc
  {
    DefaultDocWords();
    CleanTextKeepsCleanText(DefaultWords);
  }

  const DefaultWords: seq<string> := ["No", "documentation", "available"]

  lemma DefaultDocWords()
    ensures DefaultWords != []
    ensures forall i | 0 <= i < |DefaultWords| :: IsWord(DefaultWords[i]) && forall j | 0 <= j < |DefaultWords[i]| :: IsMark(DefaultWords[i][j])
    ensures DefaultDoc == JoinWith(" ", DefaultWords)
  {
    var ws := DefaultWords;
    MarksMakeWord(ws[0]);
    MarksMakeWord(ws[1]);
    MarksMakeWord(ws[2]);
    DefaultDocJoin();
  }

  lemma DefaultDocJoin()
    ensures DefaultDoc == JoinWith(" ", DefaultWords)
  {
    var ws := DefaultWords;
    assert ws[1..] == ["documentation", "available"];
    assert ws[1..][1..] == ["available"];
    assert JoinWith(" ", ["available"]) == "available";
    assert JoinWith(" ", ws[1..]) == "documentation available";
  }

  lemma MarksMakeWord(w: string)
    requires w != [] && forall j | 0 <= j < |w| :: IsMark(w[j])
    ensures IsWord(w)
  {
  }

  /** Dropping a character that stood between two spaces leaves both spaces:
      `"a ! b"` cleans to `"a  b"`. */
  lemma CleanDocKeepsDoubleSpace(a: char, x: char, b: char)
    requires IsMark(a) && IsMark(b) && !IsKept(x) && !IsSpace(x)
    ensures CleanDoc(Some([a, ' ', x, ' ', b])) == [a, ' ', ' ', b]
  {
    var text := [a, ' ', x, ' ', b];
    var clean := [a, ' ', ' ', b];
    ThreeWords(a, x, b);
    DropBetweenSpaces(a, x, b);
    StripClean(clean);
    assert DocText(Some(text)) == text;
    assert CleanText(text) == Strip(Filter(text, IsKept));
  }

  lemma ThreeWords(a: char, x: char, b: char)
    requires !IsSpace(a) && !IsSpace(x) && !IsSpace(b)
    ensures JoinWith(" ", Words([a, ' ', x, ' ', b])) == [a, ' ', x, ' ', b]
  {
    var ws := [[a], [x], [b]];
    assert [a, ' ', x, ' ', b] == JoinWith(" ", ws) by {
      assert ws[1..] == [[x], [b]];
      assert ws[1..][1..] == [[b]];
      assert JoinWith(" ", [[b]]) == [b];
      assert JoinWith(" ", ws[1..]) == [x] + " " + [b];
    }
    WordsOfJoin(ws);
  }

  lemma DropBetweenSpaces(a: char, x: char, b: char)
    requires IsMark(a) && IsMark(b) && !IsKept(x)
    ensures Filter([a, ' ', x, ' ', b], IsKept) == [a, ' ', ' ', b]
  {
    var s := [a, ' ', x, ' ', b];
    assert s[1..] == [' ', x, ' ', b];
    assert s[2..] == [x, ' ', b] && [' ', x, ' ', b][1..] == s[2..];
    assert s[3..] == [' ', b] && [x, ' ', b][1..] == s[3..];
    assert s[4..] == [b] && [' ', b][1..] == s[4..];
    assert [b][1..] == [];
    assert Filter([b], IsKept) == [b];
    assert Filter([' ', b], IsKept) == [' ', b];
    assert Filter([x, ' ', b], IsKept) == [' ', b];
    assert Filter([' ', x, ' ', b], IsKept) == [' ', ' ', b];
  }

  // ---------------------------------------------------------------- rules

  /** `endpoint.split('.')[-1]`. */
  function ShortName(endpoint: string): (name: string)
    ensures '.' !in name
    ensures |name| <= |endpoint| && endpoint[|endpoint| - |name|..] == name
    ensures |name| == |endpoint| || endpoint[|endpoint| - |name| - 1] == '.'
  {
    endpoint[LastIndexOf(endpoint, '.') + 1..]
  }

  /** `'api'` for the special routes, `'dashboard'` for the dashboard's, `'lander'`
      for everything else. */
  function Category(endpoint: string): (c: string)
    ensures c == "api" || c == "dashboard" || c == "lander"
    ensures c == "api" <==> IsSubstring("special_routes.", endpoint)
    ensures c == "dashboard" <==> !IsSubstring("special_routes.", endpoint) && IsSubstring("dashboard.", endpoint)
  {
    if IsSubstring("special_routes.", endpoint) then "api"
    else if IsSubstring("dashboard.", endpoint) then "dashboard"
    else "lander"
  }

  predicate IsImplicitMethod(m: string)
  {
    m == "HEAD" || m == "OPTIONS"
  }

  /** `list(methods - {'HEAD', 'OPTIONS'})[0]`, or `'GET'` when nothing remains. */
  function ShownMethod(methods: seq<string>): (m: string)
    ensures !IsImplicitMethod(m)
    ensures (forall i | 0 <= i < |methods| :: IsImplicitMethod(methods[i])) ==> m == "GET"
    ensures (exists i | 0 <= i < |methods| :: !IsImplicitMethod(methods[i])) ==>
      exists i | 0 <= i < |methods| :: methods[i] == m && forall j | 0 <= j < i :: IsImplicitMethod(methods[j])
  {
    if methods == [] then "GET"
    else if !IsImplicitMethod(methods[0]) then methods[0]
    else
      var m := ShownMethod(methods[1..]);
      assert forall i | 1 <= i < |methods| :: methods[i] == methods[1..][i - 1];
      m
  }

  /** The listing entry of one rule. */
  function Describe(rule: Rule): (info: RouteInfo)
    ensures info.path == rule.path
    ensures info.name == ShortName(rule.endpoint)
    ensures info.category == Category(rule.endpoint)
    ensures info.httpMethod == ShownMethod(rule.methods)
    ensures info.doc == if IsSubstring("static", rule.endpoint) then StaticDoc else CleanDoc(rule.doc)
  {
    var doc := CleanDoc(rule.doc);
    RouteInfo(
      ShortName(rule.endpoint),
      rule.path,
      if IsSubstring("static", rule.endpoint) then StaticDoc else doc,
      Category(rule.endpoint),
      ShownMethod(rule.methods))
  }

  /** The rules the listing shows: all but the application's `static` rule, in
      rule order. */
  function Listed(rules: seq<Rule>): (r: seq<Rule>)
    ensures |r| <= |rules|
    ensures forall i | 0 <= i < |r| :: r[i] in rules && r[i].endpoint != "static"
    ensures forall j | 0 <= j < |rules| :: rules[j].endpoint != "static" ==> rules[j] in r
  {
    if rules == [] then []
    else
      var rest := Listed(rules[1..]);
      assert forall j | 1 <= j < |rules| :: rules[j] == rules[1..][j - 1];
      if rules[0].endpoint == "static" then rest else [rules[0]] + rest
  }

  /** A single rule is listed exactly when it is not the `static` rule. */
  lemma ListedOne(rule: Rule)
    ensures Listed([rule]) == if rule.endpoint == "static" then [] else [rule]
  {
  }

  /** Listing distributes over concatenation, so the listed rules keep their
      order and their repetitions. */
  lemma {:induction false} ListedConcat(a: seq<Rule>, b: seq<Rule>)
    ensures Listed(a + b) == Listed(a) + Listed(b)
  {
    if a == [] {
      assert a + b == b;
    } else {
      assert (a + b)[0] == a[0];
      assert (a + b)[1..] == a[1..] + b;
      ListedConcat(a[1..], b);
    }
  }

  /** The entries of the listed rules, in rule order. */
  function RouteEntries(rules: seq<Rule>): (r: seq<RouteInfo>)
    ensures |r| == |Listed(rules)|
    ensures forall i | 0 <= i < |r| :: r[i] == Describe(Listed(rules)[i])
  {
    var listed := Listed(rules);
    seq(|listed|, i requires 0 <= i < |listed| => Describe(listed[i]))
  }

  function RouteJson(info: RouteInfo): Json
  {
    JObj(map[
      "name" := JStr(info.name),
      "path" := JStr(info.path),
      "doc" := JStr(info.doc),
      "category" := JStr(info.category),
      "type" := JStr(info.httpMethod)])
  }

  /** `GET /api/routes`. */
  function RoutesRoute(rules: seq<Rule>): (reply: Reply)
    ensures reply.status == 200 && reply.body.JsonBody? && reply.body.value.JArr?
    ensures var items := reply.body.value.items;
      && |items| == |RouteEntries(rules)|
      && forall i | 0 <= i < |items| :: items[i] == RouteJson(RouteEntries(rules)[i])
  {
    var entries := RouteEntries(rules);
    Reply(200, JsonBody(JArr(seq(|entries|, i requires 0 <= i < |entries| => RouteJson(entries[i])))))
  }
}

=== FILE: special_routes.dfy ===
/** The request handlers of `routes/special_routes.py`, as functions from the
    store and the request to the reply and the new store. The inference service
    is a parameter: a function from the prompt and the image parts to the
    completion, or `None` when the call raises. */
module SpecialRoutes {
  import opened Prelude
  import opened JsonValues
  import opened ObjectIds
  import opened Db
  import opened Http
  import Ordering
  import opened LogTail

  datatype Outcome = Outcome(reply: Reply, store: Store)

  type Inference = (Json, seq<Json>) -> Option<Json>

  /** How many recent captures one send request forwards. */
  const FetchLimit: nat := 5

  /** The default limit of the listing endpoints. */
  const ListLimit: nat := 10

  // ---------------------------------------------------------------- capture

  /** `POST /capture`: `frame` is the encoded camera frame, or `None` when the
      device cannot be opened or read. */
  function CaptureRoute(st: Store, frame: Option<string>, now: int, newId: Oid): (o: Outcome)
    ensures o.reply.status == 200 <==> frame.Some? && st.online && newId !in st.captures
    ensures o.reply.status != 200 ==> o.reply.status == 500 && o.store == st
    ensures frame.None? ==> o == Outcome(Reply(500, RaisedStatus(DeviceFault)), st)
    ensures frame.Some? && o.reply.status != 200 ==>
      o.reply.body == JsonBody(JObj(map[
        "status" := JStr("error"),
        "message" := JStr("Failed to save capture to database")]))
    ensures o.reply.status == 200 ==>
      && o.store == SaveCaptureData(st, frame.value, now, newId).store
      && newId in RecentIds(o.store)
      && o.reply.body.JsonBody?
      && o.reply.body.value.JObj?
      && "capture_id" in o.reply.body.value.fields
      && o.reply.body.value.fields["capture_id"] == JStr(Render(newId))
      && ParseId(o.reply.body.value.fields["capture_id"]) == Some(newId)
  {
    match frame
    case None => Outcome(Reply(500, RaisedStatus(DeviceFault)), st)
    case Some(image) =>
      var saved := SaveCaptureData(st, image, now, newId);
      match saved.result
      case None =>
        Outcome(Reply(500, JsonBody(JObj(map[
          "status" := JStr("error"),
          "message" := JStr("Failed to save capture to database")]))), st)
      case Some(captureId) =>
        ParseRender(newId);
        Outcome(Reply(200, JsonBody(JObj(map[
          "status" := JStr("success"),
          "message" := JStr("Video frame captured and saved with ID: " + captureId),
          "capture_id" := JStr(captureId)]))), saved.store)
  }

  // ---------------------------------------------------------------- send

  /** The image part built for one capture. Every image is labelled PNG,
      whatever its `file_type`. */
  function ImagePart(c: Capture): Json
  {
    JObj(map[
      "type" := JStr("image_url"),
      "image_url" := JObj(map["url" := JStr("data:image/png;base64," + c.imageData)])])
  }

  /** The image list and the id list, built in one pass over the fetched
      captures: one entry each per capture, in the fetched order. */
  function ImageParts(docs: seq<Record<Capture>>): (images: seq<Json>)
    ensures |images| == |docs|
    ensures forall i | 0 <= i < |docs| :: images[i] == ImagePart(docs[i].doc)
  {
    seq(|docs|, i requires 0 <= i < |docs| => ImagePart(docs[i].doc))
  }

  function IdTexts(docs: seq<Record<Capture>>): (ids: seq<Json>)
    ensures |ids| == |docs|
    ensures forall i | 0 <= i < |docs| :: ParseId(ids[i]) == Some(docs[i].id)
  {
    var ids := seq(|docs|, i requires 0 <= i < |docs| => JStr(Render(docs[i].id)));
    assert forall i | 0 <= i < |docs| :: ParseId(ids[i]) == Some(docs[i].id) by {
      forall i | 0 <= i < |docs| ensures ParseId(ids[i]) == Some(docs[i].id) {
        ParseRender(docs[i].id);
      }
    }
    ids
  }

  /** The ids among `ids` that parse. */
  ghost function Targets(ids: seq<Json>): set<Oid>
  {
    set i | 0 <= i < |ids| && ParseId(ids[i]).Some? :: ParseId(ids[i]).value
  }

  /** `for capture_id in capture_ids: self.db.archive_capture(capture_id)`, with
      the returned booleans dropped. Every capture named by the list ends up
      archived; nothing else changes. */
  function ArchiveEach(st: Store, ids: seq<Json>): (r: Store)
    ensures r.online == st.online && r.responses == st.responses
    ensures r.captures.Keys == st.captures.Keys
    ensures forall k | k in st.captures ::
      r.captures[k] == if st.online && k in Targets(ids) then st.captures[k].(archived := Some(true))
                       else st.captures[k]
    decreases |ids|
  {
    if ids == [] then st
    else
      var first := ArchiveCapture(st, ids[0]).store;
      var r := ArchiveEach(first, ids[1..]);
      assert Targets(ids) == Targets(ids[..1]) + Targets(ids[1..]) by {
        forall k | k in Targets(ids) ensures k in Targets(ids[..1]) + Targets(ids[1..]) {
          var i :| 0 <= i < |ids| && ParseId(ids[i]).Some? && ParseId(ids[i]).value == k;
          if i > 0 {
            assert ids[1..][i - 1] == ids[i];
          } else {
            assert ids[..1][0] == ids[0];
          }
        }
        forall k | k in Targets(ids[1..]) ensures k in Targets(ids) {
          var i :| 0 <= i < |ids[1..]| && ParseId(ids[1..][i]).Some? && ParseId(ids[1..][i]).value == k;
          assert ids[i + 1] == ids[1..][i];
        }
      }
      r
  }

  /** The request names no prompt: the body is falsy, or a dict without `message`. */
  predicate MissingMessage(body: Json)
  {
    !Truthy(body) || (body.JObj? && "message" !in body.fields)
  }

  /** The store after a successful send: exactly one new response, `rsp`, stored
      under `newId`; each capture in `sent` archived; nothing else changed. */
  predicate Committed(st: Store, st': Store, newId: Oid, rsp: Response, sent: set<Oid>)
  {
    && newId !in st.responses
    && st'.responses == st.responses[newId := rsp]
    && st'.online == st.online
    && st'.captures.Keys == st.captures.Keys
    && forall k | k in st.captures ::
         st'.captures[k] == if k in sent then st.captures[k].(archived := Some(true)) else st.captures[k]
  }

  /** `POST /send_request`. */
  function SendRequest(st: Store, body: Json, infer: Inference, now: int, newId: Oid): (o: Outcome)
    ensures o.reply.status == 200 || o.reply.status == 400 || o.reply.status == 500
    // nothing is written unless the whole request succeeds
    ensures o.reply.status != 200 ==> o.store == st
    // only the presence of the key is checked; any value, even '', passes
    ensures MissingMessage(body) ==> o == Outcome(ErrorReply(400, "Missing 'message' in request body"), st)
    ensures body.JObj? && "message" in body.fields ==> o == Dispatch(st, body.fields["message"], infer, now, newId)
    ensures o.reply.status == 200 ==>
      && body.JObj? && "message" in body.fields && st.online
      && var message := body.fields["message"];
      && var docs := RecentCaptures(st, FetchLimit).value;
      && docs != []
      && infer(message, ImageParts(docs)).Some?
      && var completion := infer(message, ImageParts(docs)).value;
      && Committed(st, o.store, newId, Response(now, message, completion, Ids(docs)), SentIds(docs))
      && o.reply.body == JsonBody(JObj(map[
           "status" := JStr("success"),
           "response" := completion,
           "response_id" := JStr(Render(newId))]))
  {
    if !Truthy(body) then Outcome(ErrorReply(400, "Missing 'message' in request body"), st)
    else match KeyIn("message", body)
      case Raise(f) => Outcome(FaultReply(f), st)
      case Value(present) =>
        if !present then Outcome(ErrorReply(400, "Missing 'message' in request body"), st)
        else match Subscript(body, "message")
          case Raise(f) => Outcome(FaultReply(f), st)
          case Value(message) => Dispatch(st, message, infer, now, newId)
  }

  /** The ids of the fetched captures. */
  function SentIds(docs: seq<Record<Capture>>): set<Oid>
  {
    set i | 0 <= i < |docs| :: docs[i].id
  }

  lemma TargetsOfIdTexts(docs: seq<Record<Capture>>)
    ensures Targets(IdTexts(docs)) == SentIds(docs)
  {
    var ids := IdTexts(docs);
    forall k | k in SentIds(docs) ensures k in Targets(ids) {
      var i :| 0 <= i < |docs| && docs[i].id == k;
      assert ParseId(ids[i]) == Some(k);
    }
  }

  /** The part of `send_request` after the prompt has been read. */
  function Dispatch(st: Store, message: Json, infer: Inference, now: int, newId: Oid): (o: Outcome)
    ensures o.reply.status == 200 || o.reply.status == 400 || o.reply.status == 500
    ensures o.reply.status != 200 ==> o.store == st
    ensures o.reply.status == 200 <==>
      && st.online && RecentIds(st) != {}
      && infer(message, ImageParts(RecentCaptures(st, FetchLimit).value)).Some?
      && newId !in st.responses
    // a dead server makes the fetch raise
    ensures !st.online ==> o == Outcome(FaultReply(ServerFault), st)
    // no recent capture: nothing to send, nothing written
    ensures st.online && RecentIds(st) == {} ==> o == Outcome(ErrorReply(400, "No captures found"), st)
    // a failing inference call: 500, and neither a response nor an archive flag written
    ensures (st.online && RecentIds(st) != {} &&
             infer(message, ImageParts(RecentCaptures(st, FetchLimit).value)).None?) ==>
      o == Outcome(FaultReply(UpstreamFault), st)
    // the response cannot be saved: 500 and no capture archived
    ensures (st.online && RecentIds(st) != {} &&
             infer(message, ImageParts(RecentCaptures(st, FetchLimit).value)).Some? && newId in st.responses) ==>
      o == Outcome(ErrorReply(500, "Failed to save response to database"), st)
    ensures o.reply.status == 200 ==>
      && st.online
      && var docs := RecentCaptures(st, FetchLimit).value;
      && docs != []
      && infer(message, ImageParts(docs)).Some?
      && var completion := infer(message, ImageParts(docs)).value;
      && Committed(st, o.store, newId, Response(now, message, completion, Ids(docs)), SentIds(docs))
      && o.reply.body == JsonBody(JObj(map[
           "status" := JStr("success"),
           "response" := completion,
           "response_id" := JStr(Render(newId))]))
  {
    match RecentCaptures(st, FetchLimit)
    case Raise(f) => Outcome(FaultReply(f), st)
    case Value(docs) =>
      if docs == [] then Outcome(ErrorReply(400, "No captures found"), st)
      else
        match infer(message, ImageParts(docs))
        case None => Outcome(FaultReply(UpstreamFault), st)
        case Some(completion) => Commit(st, docs, message, completion, now, newId)
  }

  /** The response saved for the sent captures lists exactly their ids, and the
      save fails only for the server or a taken id. */
  lemma SavedCaptureIds(st: Store, docs: seq<Record<Capture>>, message: Json, completion: Json, now: int, newId: Oid)
    ensures var saved := SaveResponse(st, ResponseFields(Some(now), Some(message), Some(completion), Some(IdTexts(docs))), now, newId, _ => 0);
      && (saved.result.Some? <==> st.online && newId !in st.responses)
      && (saved.result.Some? ==> saved.store.responses[newId].captureIds == Ids(docs))
  {
    var ids := IdTexts(docs);
    var saved := SaveResponse(st, ResponseFields(Some(now), Some(message), Some(completion), Some(ids)), now, newId, _ => 0);
    assert forall i | 0 <= i < |ids| :: !ids[i].JNull? && ParseId(ids[i]).Some?;
    if saved.result.Some? {
      assert forall i | 0 <= i < |ids| :: saved.store.responses[newId].captureIds[i] == docs[i].id;
    }
  }

  /** Saving the response, then archiving the captures it was made from; the
      archiving only starts once the response is stored. */
  function Commit(st: Store, docs: seq<Record<Capture>>, message: Json, completion: Json, now: int, newId: Oid)
    : (o: Outcome)
    ensures o.reply.status == 200 <==> st.online && newId !in st.responses
    ensures o.reply.status != 200 ==> o == Outcome(ErrorReply(500, "Failed to save response to database"), st)
    ensures o.reply.status == 200 ==>
      && Committed(st, o.store, newId, Response(now, message, completion, Ids(docs)), SentIds(docs))
      && o.reply.body == JsonBody(JObj(map[
           "status" := JStr("success"),
           "response" := completion,
           "response_id" := JStr(Render(newId))]))
  {
    var ids := IdTexts(docs);
    // every id text parses, so no id is ever generated for a null element
    var saved := SaveResponse(st, ResponseFields(Some(now), Some(message), Some(completion), Some(ids)), now, newId, _ => 0);
    SavedCaptureIds(st, docs, message, completion, now, newId);
    match saved.result
    case None => Outcome(ErrorReply(500, "Failed to save response to database"), saved.store)
    case Some(responseId) =>
      TargetsOfIdTexts(docs);
      Outcome(Reply(200, JsonBody(JObj(map[
        "status" := JStr("success"),
        "response" := completion,
        "response_id" := JStr(responseId)]))), ArchiveEach(saved.store, ids))
  }

  // ---------------------------------------------------------------- move / delete

  /** `POST /move_image` with body `{image_id, action}`. */
  function MoveImage(st: Store, body: Json): (o: Outcome)
    ensures o.reply.status == 200 || o.reply.status == 400 || o.reply.status == 500
    ensures o.reply.status != 200 ==> o.store == st
    ensures !Truthy(body) || (body.JObj? && ("image_id" !in body.fields || "action" !in body.fields)) ==>
      o == Outcome(ErrorReply(400, "Missing required fields"), st)
    ensures body.JObj? && "image_id" in body.fields && "action" in body.fields ==>
      var id, action := body.fields["image_id"], body.fields["action"];
      if action == JStr("archive") then
        var w := ArchiveCapture(st, id);
        o.store == w.store && (o.reply.status == 200 <==> w.result) && (!w.result ==> o.reply.status == 500)
      else if action == JStr("unarchive") then
        var w := UnarchiveCapture(st, id);
        o.store == w.store && (o.reply.status == 200 <==> w.result) && (!w.result ==> o.reply.status == 500)
      else o == Outcome(ErrorReply(400, "Invalid action"), st)
  {
    if !Truthy(body) then Outcome(ErrorReply(400, "Missing required fields"), st)
    else match KeyIn("image_id", body)
      case Raise(f) => Outcome(FaultReply(f), st)
      case Value(hasId) =>
        if !hasId then Outcome(ErrorReply(400, "Missing required fields"), st)
        else match KeyIn("action", body)
          case Raise(f) => Outcome(FaultReply(f), st)
          case Value(hasAction) =>
            if !hasAction then Outcome(ErrorReply(400, "Missing required fields"), st)
            else match (Subscript(body, "image_id"), Subscript(body, "action"))
              case (Value(id), Value(action)) =>
                if action == JStr("archive") then
                  var w := ArchiveCapture(st, id);
                  if w.result then Outcome(Reply(200, JsonBody(JObj(map["status" := JStr("success"), "message" := JStr("Image archived")]))), w.store)
                  else Outcome(ErrorReply(500, "Failed to archive image"), w.store)
                else if action == JStr("unarchive") then
                  var w := UnarchiveCapture(st, id);
                  if w.result then Outcome(Reply(200, JsonBody(JObj(map["status" := JStr("success"), "message" := JStr("Image unarchived")]))), w.store)
                  else Outcome(ErrorReply(500, "Failed to unarchive image"), w.store)
                else Outcome(ErrorReply(400, "Invalid action"), st)
              case (Raise(f), _) => Outcome(FaultReply(f), st)
              case (_, Raise(f)) => Outcome(FaultReply(f), st)
  }

  /** `POST /delete_image` with body `{image_id}`. */
  function DeleteImage(st: Store, body: Json): (o: Outcome)
    ensures o.reply.status == 200 || o.reply.status == 400 || o.reply.status == 404 || o.reply.status == 500
    ensures o.reply.status != 200 ==> o.store == st
    ensures !Truthy(body) || (body.JObj? && "image_id" !in body.fields) ==>
      o == Outcome(ErrorReply(400, "Missing required fields"), st)
    ensures body.JObj? && "image_id" in body.fields ==>
      var w := DeleteCapture(st, body.fields["image_id"]);
      o.store == w.store && (if w.result then o.reply.status == 200 else o.reply == ErrorReply(404, "Image not found"))
  {
    if !Truthy(body) then Outcome(ErrorReply(400, "Missing required fields"), st)
    else match KeyIn("image_id", body)
      case Raise(f) => Outcome(FaultReply(f), st)
      case Value(hasId) =>
        if !hasId then Outcome(ErrorReply(400, "Missing required fields"), st)
        else match Subscript(body, "image_id")
          case Raise(f) => Outcome(FaultReply(f), st)
          case Value(id) =>
            var w := DeleteCapture(st, id);
            if w.result then Outcome(Reply(200, JsonBody(JObj(map["status" := JStr("success")]))), w.store)
            else Outcome(ErrorReply(404, "Image not found"), w.store)
  }

  /** `POST /delete_response` with body `{response_id}`. */
  function DeleteResponseRoute(st: Store, body: Json): (o: Outcome)
    ensures o.reply.status == 200 || o.reply.status == 400 || o.reply.status == 404 || o.reply.status == 500
    ensures o.reply.status != 200 ==> o.store == st
    ensures !Truthy(body) || (body.JObj? && "response_id" !in body.fields) ==>
      o == Outcome(ErrorReply(400, "Missing response_id"), st)
    ensures body.JObj? && "response_id" in body.fields ==>
      var w := DeleteResponse(st, body.fields["response_id"]);
      o.store == w.store && (if w.result then o.reply.status == 200 else o.reply == ErrorReply(404, "Response not found"))
  {
    if !Truthy(body) then Outcome(ErrorReply(400, "Missing response_id"), st)
    else match KeyIn("response_id", body)
      case Raise(f) => Outcome(FaultReply(f), st)
      case Value(hasId) =>
        if !hasId then Outcome(ErrorReply(400, "Missing response_id"), st)
        else match Subscript(body, "response_id")
          case Raise(f) => Outcome(FaultReply(f), st)
          case Value(id) =>
            var w := DeleteResponse(st, id);
            if w.result then Outcome(Reply(200, JsonBody(JObj(map["status" := JStr("success")]))), w.store)
            else Outcome(ErrorReply(404, "Response not found"), w.store)
  }

  // ---------------------------------------------------------------- listings

  /** A capture document as JSON, with its `_id` as text. Timestamps are shown as
      numbers; an absent `archived` field stays absent. */
  function CaptureJson(r: Record<Capture>): (j: Json)
    ensures j.JObj? && "_id" in j.fields && j.fields["_id"] == JStr(Render(r.id))
  {
    var c := r.doc;
    var base := map[
      "_id" := JStr(Render(r.id)),
      "timestamp" := JNum(c.timestamp),
      "image_data" := JStr(c.imageData),
      "file_type" := JStr(c.fileType)];
    var withFlag := if c.archived.Some? then base["archived" := JBool(c.archived.value)] else base;
    var withSource :=
      if c.source.Some? then withFlag["filename" := JStr(c.source.value.filename)]["original_path" := JStr(c.source.value.originalPath)]
      else withFlag;
    JObj(withSource)
  }

  function CaptureList(docs: seq<Record<Capture>>): (j: Json)
    ensures j.JArr? && |j.items| == |docs|
    ensures forall i | 0 <= i < |docs| :: j.items[i] == CaptureJson(docs[i])
  {
    JArr(seq(|docs|, i requires 0 <= i < |docs| => CaptureJson(docs[i])))
  }

  /** `GET /recent_captures`: the default listing of ten, ids as text. */
  function RecentCapturesRoute(st: Store): (reply: Reply)
    ensures reply.status == 200 <==> st.online
    ensures !st.online ==> reply == FaultReply(ServerFault)
    ensures st.online ==>
      && reply.body.JsonBody? && reply.body.value.JArr?
      && var items := reply.body.value.items;
      && |items| <= ListLimit
      && reply.body.value == CaptureList(RecentCaptures(st, ListLimit).value)
      && forall i | 0 <= i < |items| ::
           items[i].JObj? && "_id" in items[i].fields
           && ParseId(items[i].fields["_id"]).Some?
           && ParseId(items[i].fields["_id"]).value in RecentIds(st)
  {
    match RecentCaptures(st, ListLimit)
    case Raise(f) => FaultReply(f)
    case Value(docs) =>
      assert forall i | 0 <= i < |docs| :: ParseId(JStr(Render(docs[i].id))) == Some(docs[i].id) by {
        forall i | 0 <= i < |docs| ensures ParseId(JStr(Render(docs[i].id))) == Some(docs[i].id) {
          ParseRender(docs[i].id);
        }
      }
      Reply(200, JsonBody(CaptureList(docs)))
  }

  /** `GET /archived_captures`: always 200, since the store answers `[]` on error;
      when the server answers, one entry per archived capture. */
  function ArchivedCapturesRoute(st: Store): (reply: Reply)
    ensures reply.status == 200 && reply.body.JsonBody? && reply.body.value.JArr?
    ensures var items := reply.body.value.items;
      && (!st.online ==> items == [])
      && (st.online ==> |items| == |ArchivedIds(st)|)
      && reply.body.value == CaptureList(ArchivedCaptures(st))
      && forall i | 0 <= i < |items| ::
           items[i].JObj? && "_id" in items[i].fields
           && ParseId(items[i].fields["_id"]).Some?
           && ParseId(items[i].fields["_id"]).value in ArchivedIds(st)
  {
    var docs := ArchivedCaptures(st);
    assert forall i | 0 <= i < |docs| :: ParseId(JStr(Render(docs[i].id))) == Some(docs[i].id) by {
      forall i | 0 <= i < |docs| ensures ParseId(JStr(Render(docs[i].id))) == Some(docs[i].id) {
        ParseRender(docs[i].id);
      }
    }
    Reply(200, JsonBody(CaptureList(docs)))
  }

  /** One entry of `GET /recent_responses`: `_id`, `timestamp`, `response_data` and
      the capture ids as text. The prompt (`message`) is not included. */
  function ResponseJson(r: Record<Response>): (j: Json)
    ensures j.JObj? && j.fields.Keys == {"_id", "timestamp", "response_data", "capture_ids"}
    ensures j.fields["_id"] == JStr(Render(r.id))
    ensures j.fields["response_data"] == r.doc.responseData
    ensures var ids := j.fields["capture_ids"];
      ids.JArr? && |ids.items| == |r.doc.captureIds|
      && forall i | 0 <= i < |ids.items| :: ParseId(ids.items[i]) == Some(r.doc.captureIds[i])
  {
    var rsp := r.doc;
    var ids := seq(|rsp.captureIds|, i requires 0 <= i < |rsp.captureIds| => JStr(Render(rsp.captureIds[i])));
    assert forall i | 0 <= i < |ids| :: ParseId(ids[i]) == Some(rsp.captureIds[i]) by {
      forall i | 0 <= i < |ids| ensures ParseId(ids[i]) == Some(rsp.captureIds[i]) {
        ParseRender(rsp.captureIds[i]);
      }
    }
    JObj(map[
      "_id" := JStr(Render(r.id)),
      "timestamp" := JNum(rsp.timestamp),
      "response_data" := rsp.responseData,
      "capture_ids" := JArr(ids)])
  }

  /** `GET /recent_responses`: the ten newest responses, formatted. */
  function RecentResponsesRoute(st: Store): (reply: Reply)
    ensures reply.status == 200 <==> st.online
    ensures !st.online ==> reply == FaultReply(ServerFault)
    ensures st.online ==>
      && reply.body.JsonBody? && reply.body.value.JArr?
      && var docs := RecentResponses(st, ListLimit).value;
      && var items := reply.body.value.items;
      && |items| == |docs| <= ListLimit
      && forall i | 0 <= i < |items| :: items[i] == ResponseJson(docs[i])
  {
    match RecentResponses(st, ListLimit)
    case Raise(f) => FaultReply(f)
    case Value(docs) =>
      Reply(200, JsonBody(JArr(seq(|docs|, i requires 0 <= i < |docs| => ResponseJson(docs[i])))))
  }

  // ---------------------------------------------------------------- logs

  /** `GET /server_logs`: the tail of the log file, newest line first, as plain text. */
  function ServerLogs(file: LogFile): (reply: Reply)
    ensures reply.status == 200 <==> file.Readable?
    ensures file.Missing? ==> reply == Reply(404, TextBody("No logs available"))
    ensures file.Unreadable? ==> reply == Reply(500, RaisedText(ReadFault))
    ensures file.Readable? ==> reply.body == TextBody(JoinWith("\n", NewestFirstLines(file.text)))
  {
    match file
    case Missing => Reply(404, TextBody("No logs available"))
    case Unreadable => Reply(500, RaisedText(ReadFault))
    case Readable(text) => Reply(200, TextBody(JoinWith("\n", NewestFirstLines(text))))
  }
}

=== FILE: workflow.dfy ===
/** The request sequences the handlers of `routes/special_routes.py` are meant to
    support: capture, list, send (which archives what it sent), delete; and what
    repeating a move or a delete request answers. */
module Workflow {
  import opened Prelude
  import opened JsonValues
  import opened ObjectIds
  import opened Db
  import opened Http
  import opened SpecialRoutes
  import Lifecycle
  import Ordering

  /** A recent capture strictly newer than every other capture is in any
      non-empty listing of recent captures. */
  lemma NewestRecentIsListed(st: Store, k: Oid, limit: nat)
    requires st.online && k in RecentIds(st)
    requires forall j | j in st.captures && j != k :: st.captures[j].timestamp < st.captures[k].timestamp
    ensures k in Ids(RecentCaptures(st, limit).value)
  {
    var docs := RecentCaptures(st, limit).value;
    assert |docs| > 0;
    if docs[0].id == k {
      assert Ids(docs)[0] == k;
    } else {
      assert docs[0].doc.timestamp < st.captures[k].timestamp;
    }
  }

  /** The id text of a capture, as the capture reply hands it out. */
  function IdText(k: Oid): (j: Json)
    ensures ParseId(j) == Some(k)
  {
    ParseRender(k);
    JStr(Render(k))
  }

  /** A JSON list of documents holds one whose `_id` is `idText`. */
  predicate Lists(list: Json, idText: Json)
  {
    list.JArr? && exists i | 0 <= i < |list.items| ::
      list.items[i].JObj? && "_id" in list.items[i].fields && list.items[i].fields["_id"] == idText
  }

  /** A response strictly newer than every other response is in any non-empty
      listing of recent responses. */
  lemma NewestResponseIsListed(st: Store, k: Oid, limit: nat)
    requires st.online && k in st.responses
    requires forall j | j in st.responses && j != k :: st.responses[j].timestamp < st.responses[k].timestamp
    ensures k in Ids(RecentResponses(st, limit).value)
  {
    var docs := RecentResponses(st, limit).value;
    assert |docs| > 0;
    if docs[0].id == k {
      assert Ids(docs)[0] == k;
    } else {
      assert docs[0].doc.timestamp < st.responses[k].timestamp;
    }
  }

  /** A JSON list of responses holds the formatted form of `r`. */
  predicate ListsResponse(list: Json, r: Record<Response>)
  {
    list.JArr? && exists i | 0 <= i < |list.items| :: list.items[i] == ResponseJson(r)
  }

  /** The newest response is shown by `/recent_responses`, with its capture ids as text. */
  lemma NewestResponseIsShown(st: Store, k: Oid)
    requires st.online && k in st.responses
    requires forall j | j in st.responses && j != k :: st.responses[j].timestamp < st.responses[k].timestamp
    ensures ListsResponse(RecentResponsesRoute(st).body.value, Record(k, st.responses[k]))
  {
    NewestResponseIsListed(st, k, ListLimit);
    var docs := RecentResponses(st, ListLimit).value;
    var i :| 0 <= i < |docs| && Ids(docs)[i] == k;
    assert RecentResponsesRoute(st).body.value.items[i] == ResponseJson(docs[i]);
  }

  /** A capture that is not recent is not shown by `/recent_captures`. */
  lemma NotRecentNotShown(st: Store, k: Oid)
    requires st.online && k !in RecentIds(st)
    ensures !Lists(RecentCapturesRoute(st).body.value, IdText(k))
  {
    var items := RecentCapturesRoute(st).body.value.items;
    forall n | 0 <= n < |items| && items[n].JObj? && "_id" in items[n].fields
      ensures items[n].fields["_id"] != IdText(k)
    {
      assert ParseId(items[n].fields["_id"]).value in RecentIds(st);
    }
  }

  /** A capture listed by the store appears, by its id text, in the JSON list of it. */
  lemma ListedInJson(docs: seq<Record<Capture>>, k: Oid)
    requires k in Ids(docs)
    ensures Lists(CaptureList(docs), IdText(k))
  {
    var i :| 0 <= i < |docs| && Ids(docs)[i] == k;
    assert CaptureList(docs).items[i] == CaptureJson(docs[i]);
  }

  /** A listing whose limit admits every recent capture fetches every one. */
  lemma FetchesAllFew(st: Store, limit: nat)
    requires st.online && |RecentIds(st)| <= limit
    ensures SentIds(RecentCaptures(st, limit).value) == RecentIds(st)
  {
    var docs := RecentCaptures(st, limit).value;
    forall k | k in RecentIds(st) ensures k in SentIds(docs) {
      var i :| 0 <= i < |docs| && Ids(docs)[i] == k;
    }
  }

  /** The ids of a listing that admits every recent capture: exactly the recent
      ones, newest first. */
  lemma FetchedInOrder(st: Store, limit: nat)
    requires st.online && |RecentIds(st)| <= limit
    ensures var ids := Ids(RecentCaptures(st, limit).value);
      && (forall i | 0 <= i < |ids| :: ids[i] in RecentIds(st))
      && (forall k | k in RecentIds(st) :: k in ids)
      && Ordering.NewestFirst(CaptureTimes(st.captures), ids)
  {
    var docs := RecentCaptures(st, limit).value;
    assert forall i | 0 <= i < |docs| :: Ids(docs)[i] == docs[i].id;
  }

  /** What a successful send did to the captures: each fetched one archived,
      every other one unchanged. */
  lemma SendArchivesFetched(st: Store, body: Json, infer: Inference, now: int, newId: Oid)
    requires SendRequest(st, body, infer, now, newId).reply.status == 200
    ensures st.online
    ensures var st', docs := SendRequest(st, body, infer, now, newId).store, RecentCaptures(st, FetchLimit).value;
      && SentIds(docs) <= st.captures.Keys
      && st'.captures.Keys == st.captures.Keys
      && forall k | k in st.captures ::
           st'.captures[k] == if k in SentIds(docs) then st.captures[k].(archived := Some(true)) else st.captures[k]
  {
  }

  /** A successful send with at most five recent captures archives all of them:
      no recent capture is left, the archived set grows by exactly those, and the
      stored response names exactly those, newest first. */
  lemma SendArchivesAllFew(st: Store, body: Json, infer: Inference, now: int, newId: Oid)
    requires |RecentIds(st)| <= FetchLimit
    requires SendRequest(st, body, infer, now, newId).reply.status == 200
    ensures var st' := SendRequest(st, body, infer, now, newId).store;
      && RecentIds(st') == {}
      && ArchivedIds(st') == ArchivedIds(st) + RecentIds(st)
      && st'.captures.Keys == st.captures.Keys
      && var ids := st'.responses[newId].captureIds;
      && (forall i | 0 <= i < |ids| :: ids[i] in RecentIds(st))
      && (forall k | k in RecentIds(st) :: k in ids)
      && Ordering.NewestFirst(CaptureTimes(st.captures), ids)
  {
    var st' := SendRequest(st, body, infer, now, newId).store;
    SendStoresResponse(st, body, infer, now, newId);
    SendArchivesFetched(st, body, infer, now, newId);
    FetchesAllFew(st, FetchLimit);
    FetchedInOrder(st, FetchLimit);
    Lifecycle.ArchiveSetMoves(st, st', SentIds(RecentCaptures(st, FetchLimit).value));
  }

  /** Steps 1 and 2 of the image workflow: the capture is taken, its id handed
      out, and it heads the recent listing. */
  lemma CaptureIsListed(st: Store, frame: string, t: int, capId: Oid)
    requires st.online && capId !in st.captures
    requires forall j | j in st.captures :: st.captures[j].timestamp < t
    ensures var captured := CaptureRoute(st, Some(frame), t, capId);
      && captured.reply.status == 200
      && captured.reply.body.JsonBody? && captured.reply.body.value.JObj?
      && captured.reply.body.value.fields["capture_id"] == IdText(capId)
      && var st1 := captured.store;
      && st1.online && st1.responses == st.responses
      && capId in RecentIds(st1)
      && (forall j | j in st1.captures && j != capId :: st1.captures[j].timestamp < st1.captures[capId].timestamp)
      && RecentCapturesRoute(st1).status == 200
      && Lists(RecentCapturesRoute(st1).body.value, IdText(capId))
  {
    var st1 := CaptureRoute(st, Some(frame), t, capId).store;
    assert st1.captures[capId].timestamp == t;
    NewestRecentIsListed(st1, capId, ListLimit);
    ListedInJson(RecentCaptures(st1, ListLimit).value, capId);
  }

  /** Steps 3 and 4: a send while the capture is the newest recent one succeeds,
      stores a response naming it, and moves it to the archived listing. */
  lemma SendArchivesNewest(st: Store, message: Json, infer: Inference, now: int, rspId: Oid, capId: Oid)
    requires st.online && capId in RecentIds(st) && rspId !in st.responses
    requires forall j | j in st.captures && j != capId :: st.captures[j].timestamp < st.captures[capId].timestamp
    requires forall parts :: infer(message, parts).Some?
    ensures var sent := SendRequest(st, JObj(map["message" := message]), infer, now, rspId);
      && sent.reply.status == 200
      && var st2 := sent.store;
      && st2.online
      && rspId in st2.responses
      && capId in st2.responses[rspId].captureIds
      && capId in ArchivedIds(st2)
      && capId !in RecentIds(st2)
      && Lists(ArchivedCapturesRoute(st2).body.value, IdText(capId))
  {
    var body := JObj(map["message" := message]);
    var docs := RecentCaptures(st, FetchLimit).value;
    NewestRecentIsListed(st, capId, FetchLimit);
    SendSucceeds(st, message, infer, now, rspId);
    SendStoresResponse(st, body, infer, now, rspId);
    SendArchivesFetched(st, body, infer, now, rspId);
    var st2 := SendRequest(st, body, infer, now, rspId).store;
    IdsAreSent(docs, capId);
    Lifecycle.ArchiveSetMoves(st, st2, SentIds(docs));
    ListedInJson(ArchivedCaptures(st2), capId);
  }

  lemma IdsAreSent(docs: seq<Record<Capture>>, k: Oid)
    requires k in Ids(docs)
    ensures k in SentIds(docs)
  {
    var i :| 0 <= i < |docs| && Ids(docs)[i] == k;
  }

  /** A send with a prompt, a recent capture, an inference that answers and a
      fresh response id succeeds. */
  lemma SendSucceeds(st: Store, message: Json, infer: Inference, now: int, rspId: Oid)
    requires st.online && RecentIds(st) != {} && rspId !in st.responses
    requires forall parts :: infer(message, parts).Some?
    ensures SendRequest(st, JObj(map["message" := message]), infer, now, rspId).reply.status == 200
  {
    assert infer(message, ImageParts(RecentCaptures(st, FetchLimit).value)).Some?;
  }

  /** A successful send stores one response naming the fetched captures. */
  lemma SendStoresResponse(st: Store, body: Json, infer: Inference, now: int, newId: Oid)
    requires SendRequest(st, body, infer, now, newId).reply.status == 200
    ensures var st' := SendRequest(st, body, infer, now, newId).store;
      && st'.online
      && newId !in st.responses
      && newId in st'.responses
      && st'.responses == st.responses[newId := st'.responses[newId]]
      && st'.responses[newId].timestamp == now
      && st'.responses[newId].captureIds == Ids(RecentCaptures(st, FetchLimit).value)
  {
  }

  /** After that send, `/recent_captures` no longer shows the capture and
      `/recent_responses` shows the new response first. */
  lemma SendShowsResult(st: Store, message: Json, infer: Inference, now: int, rspId: Oid, capId: Oid)
    requires st.online && capId in RecentIds(st) && rspId !in st.responses
    requires forall j | j in st.captures && j != capId :: st.captures[j].timestamp < st.captures[capId].timestamp
    requires forall j | j in st.responses :: st.responses[j].timestamp < now
    requires forall parts :: infer(message, parts).Some?
    ensures var st2 := SendRequest(st, JObj(map["message" := message]), infer, now, rspId).store;
      && st2.online && rspId in st2.responses
      && !Lists(RecentCapturesRoute(st2).body.value, IdText(capId))
      && ListsResponse(RecentResponsesRoute(st2).body.value, Record(rspId, st2.responses[rspId]))
  {
    var body := JObj(map["message" := message]);
    SendArchivesNewest(st, message, infer, now, rspId, capId);
    SendStoresResponse(st, body, infer, now, rspId);
    var st2 := SendRequest(st, body, infer, now, rspId).store;
    ShownAfterSend(st.responses, st2, rspId, capId, now);
  }

  /** The listings of a store in which the capture is not recent and the new
      response is newer than all the others. */
  lemma ShownAfterSend(before: map<Oid, Response>, st2: Store, rspId: Oid, capId: Oid, now: int)
    requires st2.online && capId !in RecentIds(st2)
    requires rspId in st2.responses && st2.responses == before[rspId := st2.responses[rspId]]
    requires st2.responses[rspId].timestamp == now
    requires forall j | j in before :: before[j].timestamp < now
    ensures !Lists(RecentCapturesRoute(st2).body.value, IdText(capId))
    ensures ListsResponse(RecentResponsesRoute(st2).body.value, Record(rspId, st2.responses[rspId]))
  {
    NotRecentNotShown(st2, capId);
    NewestResponseIsShown(st2, rspId);
  }

  /** Steps 5 and 6: deleting a stored capture by its id text succeeds, and the
      archived listing no longer shows it. */
  lemma DeleteUnlists(st: Store, capId: Oid)
    requires st.online && capId in st.captures
    ensures var deleted := DeleteImage(st, JObj(map["image_id" := IdText(capId), "source" := JStr("archived")]));
      && deleted.reply.status == 200
      && capId !in deleted.store.captures
      && !Lists(ArchivedCapturesRoute(deleted.store).body.value, IdText(capId))
  {
    var st3 := DeleteImage(st, JObj(map["image_id" := IdText(capId), "source" := JStr("archived")])).store;
    var items := ArchivedCapturesRoute(st3).body.value.items;
    forall n | 0 <= n < |items| && items[n].JObj? && "_id" in items[n].fields
      ensures items[n].fields["_id"] != IdText(capId)
    {
      assert ParseId(items[n].fields["_id"]).value in st3.captures;
    }
  }

  /** The image workflow: capture a frame on a server whose captures are all older;
      find it in `/recent_captures`; send a prompt, which stores one response naming
      it, shown first by `/recent_responses`, and moves the capture from
      `/recent_captures` to `/archived_captures`; delete it; and it is listed
      nowhere. */
  lemma ImageWorkflow(
    st: Store, frame: string, t: int, capId: Oid,
    message: Json, infer: Inference, t2: int, rspId: Oid)
    requires st.online && capId !in st.captures && rspId !in st.responses
    requires forall j | j in st.captures :: st.captures[j].timestamp < t
    requires forall j | j in st.responses :: st.responses[j].timestamp < t2
    requires forall parts :: infer(message, parts).Some?
    ensures
      var captured := CaptureRoute(st, Some(frame), t, capId);
      && captured.reply.status == 200
      && captured.reply.body.value.fields["capture_id"] == IdText(capId)
      && var st1 := captured.store;
      && Lists(RecentCapturesRoute(st1).body.value, IdText(capId))
      && var sent := SendRequest(st1, JObj(map["message" := message]), infer, t2, rspId);
      && sent.reply.status == 200
      && var st2 := sent.store;
      && capId in st2.responses[rspId].captureIds
      && !Lists(RecentCapturesRoute(st2).body.value, IdText(capId))
      && Lists(ArchivedCapturesRoute(st2).body.value, IdText(capId))
      && ListsResponse(RecentResponsesRoute(st2).body.value, Record(rspId, st2.responses[rspId]))
      && var deleted := DeleteImage(st2, JObj(map["image_id" := IdText(capId), "source" := JStr("archived")]));
      && deleted.reply.status == 200
      && !Lists(ArchivedCapturesRoute(deleted.store).body.value, IdText(capId))
  {
    CaptureIsListed(st, frame, t, capId);
    var st1 := CaptureRoute(st, Some(frame), t, capId).store;
    SendArchivesNewest(st1, message, infer, t2, rspId, capId);
    SendShowsResult(st1, message, infer, t2, rspId, capId);
    var st2 := SendRequest(st1, JObj(map["message" := message]), infer, t2, rspId).store;
    DeleteUnlists(st2, capId);
  }

  /** The archive request for a capture that is already archived fails with 500
      and changes nothing. */
  lemma MoveImageArchiveTwice(st: Store, id: Json)
    requires MoveImage(st, JObj(map["image_id" := id, "action" := JStr("archive")])).reply.status == 200
    ensures var body := JObj(map["image_id" := id, "action" := JStr("archive")]);
      var st1 := MoveImage(st, body).store;
      MoveImage(st1, body).reply.status == 500 && MoveImage(st1, body).store == st1
  {
    var body := JObj(map["image_id" := id, "action" := JStr("archive")]);
    Lifecycle.ArchiveTwice(st, id);
  }

  /** Deleting the same image twice: the second request answers 404. */
  lemma DeleteImageTwice(st: Store, id: Json)
    requires DeleteImage(st, JObj(map["image_id" := id])).reply.status == 200
    ensures var body := JObj(map["image_id" := id]);
      var st1 := DeleteImage(st, body).store;
      DeleteImage(st1, body) == Outcome(ErrorReply(404, "Image not found"), st1)
  {
    Lifecycle.DeleteTwice(st, id);
  }

  /** A malformed id in a delete request is answered 404, whatever the store holds. */
  lemma MalformedDeleteIsNotFound(st: Store, id: Json)
    requires ParseId(id).None?
    ensures DeleteImage(st, JObj(map["image_id" := id])) == Outcome(ErrorReply(404, "Image not found"), st)
    ensures DeleteResponseRoute(st, JObj(map["response_id" := id])) == Outcome(ErrorReply(404, "Response not found"), st)
  {
    Lifecycle.MalformedIdTouchesNothing(st, id);
  }
}
